=== FILE: README.md ===
# Climate-edge model in Dafny

This project models the decision logic of a set of Python scripts. The scripts estimate how 2026 and January 2026 will rank among the warmest years and Januaries on record, then compare those estimates with prediction-market prices. The model covers four scripts:

- **`climate_edge_v3.py`**
  - the ENSO state taken from the latest Oceanic Nino Index reading;
  - 2026's year-to-date progress against earlier ERA5 years, including baselines, comparisons and anomaly drift;
  - the Monte Carlo rank rule and its tally into rank probabilities;
  - the edge table that matches market questions to ranks and sorts them by |edge|;
  - the ±0.1 direction label of the Open-Meteo trend.
- **`january_2026_analysis.py`**
  - the six temperature brackets;
  - the January ranking against 30 past GISS Januaries;
  - the Open-Meteo estimate and its fallback;
  - the edge, Kelly fraction and PASS rules;
  - the 10,000-draw simulation and the two market tables.
- **`era5t_january2026.py`**
  - the GISS calibration of ERA5T and Open-Meteo means;
  - the rule for how many January days are available on a given day;
  - the request gates;
  - the 0.7/0.3 weighted combination;
  - the rank obtained by sorting.
- **`era5_fetcher.py`**
  - the 1951-1980 monthly baseline and the anomaly conversion;
  - the choice of which days to request.

Modelling conventions:

- **Arithmetic.** All arithmetic is exact: Dafny's `real` stands for the scripts' floats.
- **Randomness.** Random draws are inputs.
  - `random.gauss(mu, sigma)` is `mu + sigma * z` for an input `z`.
  - `random.uniform(0.5, 1.5)` is an input `u`.
  - `random.choice` between two ranks is an input coin.
- **Other inputs.**
  - `math.sqrt` is a parameter `sqrt`.
  - "Today" is a `Calendar.Date` parameter.
  - The fetched means and readings are parameters.
- **The January ranking table.** The GISS table of past Januaries is a parameter of `January.JanuaryRanking`, `January.Simulate` and `January.RunAnalysis`; the source reads a module constant. The constant is `January.GissJanuaryHistorical`, and lemmas state the ranking bands it yields.
- **The ERA5T cross-check history.** Likewise, `Era5t.CrossCheck` takes its history as a parameter, and `Era5t.GissJanuary` is the source's ten-value table.
- **Python idioms.**
  - `max` keeps the first maximal element.
  - `sorted(..., reverse=True)` is a stable insertion sort, `Sorting.SortDesc`.
  - `s[:n]` clamps to the list's length.
  - A truthiness filter (`if t`) drops `0.0` as well as `None`.

Modules: `Common` (Option, sums, Python list idioms), `Sorting`, `Calendar`, `Tallies` (counters as folds), `Enso`, `Progress`, `MonteCarlo`, `Trend`, `Edges`, `January`, `Era5t`, `Era5Fetcher`.

`days_so_far` is the number of non-null 2026 entries, counting those after a gap. It is not the length of the leading run of valid entries. See `Progress.InteriorGapIsSkipped`.

## Model

| member | source | states |
|---|---|---|
| Common.Present | climate_edge_v3.py:174 | `[t for t in s if t is not None]`: its length is the number of present entries, it holds exactly the present values, and it is empty iff every entry is `None` |
| Common.PresentCounts | climate_edge_v3.py:174 | each value is kept exactly as many times as it occurs in the input |
| Common.PresentAppend | climate_edge_v3.py:174 | filtering a concatenation is the concatenation of the filtered parts, so the kept values keep their input order |
| Common.PresentLast | climate_edge_v3.py:174 | the last value kept is the value of the last non-null entry: every entry after it is `None` |
| Common.Truthy | climate_edge_v3.py:198-199 | `[t for t in s if t]`: the `None`-filter of the input with every `0.0` treated as missing, so order and multiplicity carry over; it holds exactly the present values other than `0.0` and is no longer than the `None`-filtered list |
| Common.Prefix | climate_edge_v3.py:189 | `s[:n]` has length `min(n, len(s))` and agrees with `s` on every index it keeps |
| Common.FirstIndex | january_2026_analysis.py:81-84 | the first-match scan: `None` iff no element satisfies the test; otherwise the element found satisfies it and none before it does |
| Common.YearName | climate_edge_v3.py:209 | `str(y)` is a non-empty digit string, as `isdigit` requires |
| Common.YearNameRoundTrip | climate_edge_v3.py:185-187 | `int(str(y)) == y`: series named by `str(y)` are read back as year `y` |
| Sorting.SortDesc | january_2026_analysis.py:63 | `sorted(..., reverse=True)` returns a permutation of its input whose keys never increase |
| Sorting.SortDescIsStable | climate_edge_v3.py:396 | for every key value, elements carrying it keep their input order (Python's sort is stable) |
| Sorting.IndexOf | era5t_january2026.py:260 | `list.index(v)`: a position holding `v`, with no earlier position holding it |
| Sorting.IndexOfSortedDesc | era5t_january2026.py:258-260 | in a non-increasing list, the first position of `v` equals the number of elements strictly greater than `v` |
| Calendar.MonthLength | era5_fetcher.py:102 | `calendar.monthrange(y, m)[1]`: 28..31, 29 exactly for February of a leap year, 30 exactly for April, June, September and November |
| Calendar.DaysBeforeMonth | era5_fetcher.py:96 | the months before month `m` hold between 28 and 31 days each |
| Calendar.DaysBeforeYearClosedForm | era5_fetcher.py:96 | the days before year `y` are 365 per year plus the Gregorian leap days: multiples of 4, less those of 100, plus those of 400 |
| Calendar.PreviousDay | era5_fetcher.py:96 | `d - timedelta(days=1)`: `None` exactly for 0001-01-01; otherwise a valid date one ordinal day earlier |
| Calendar.MinusDays | era5_fetcher.py:96 | `today - timedelta(days=n)`: a valid date exactly `n` ordinal days earlier, or `None` iff that would precede 0001-01-01 |
| Tallies.Tally | climate_edge_v3.py:301-322 | after every trial increments its outcome's counter, counter `c` is the number of trials with outcome `c` and the counters add up to the number of trials |
| Tallies.Shares | climate_edge_v3.py:324 | `v / n` for every counter: each share is the counter over `n`, lies in [0, 1], and the shares sum to exactly 1 |
| Enso.LatestByIsMaximal | climate_edge_v3.py:157 | `max(..., key=...)` under a strict order: no reading's key is later than the chosen one's |
| Enso.LatestReading | climate_edge_v3.py:157 | the reading taken as latest is one of the readings, and no reading has a later `(year, season text)` key |
| Enso.Impact | climate_edge_v3.py:160-165 | the impact is positive iff ONI >= 0.5, negative iff ONI <= -0.5, and wherever it is non-zero it equals 0.08·ONI, so `-0.08·abs(oni)` keeps the sign of `oni` |
| Enso.PhaseOf | climate_edge_v3.py:160-165 | El Nino iff ONI >= 0.5, La Nina iff ONI <= -0.5, neutral exactly where the impact is 0 |
| Enso.ImpactMonotone | climate_edge_v3.py:160-165 | a larger ONI never gives a smaller impact; the impact is 0 exactly inside the open band (-0.5, 0.5) |
| Enso.ImpactReferencePoints | climate_edge_v3.py:160-165 | ONI 0.4, 0.6 and 1.0 give impacts 0, 0.048 and 0.08 |
| Enso.CurrentEnsoState | climate_edge_v3.py:153-168 | no readings: neutral with ONI 0 and impact 0; otherwise the latest reading's ONI; El Nino iff ONI >= 0.5, La Nina iff ONI <= -0.5, neutral iff impact 0, and impact 0.08·ONI outside neutral |
| Enso.SeasonTextMisordersLateYear | climate_edge_v3.py:157 | with SON and OND readings of one year, the source's key picks SON, though OND is the later season |
| Enso.LatestReadingChronological | climate_edge_v3.py:157 | the corrected choice: one of the readings, and no reading is chronologically later (year, then season position) |
| Enso.ChronologicalPicksLaterSeason | climate_edge_v3.py:157 | with SON and OND readings of one year, the corrected choice picks OND |
| Enso.CurrentEnsoStateChronological | climate_edge_v3.py:153-168 | the ENSO state from the chronologically latest reading, with the same phase and impact rules |
| Progress.Comparisons | climate_edge_v3.py:182-194 | a year from 2015 on (digit name, not 2026) is compared iff it has a reading in the window; its entry holds the window mean, and mean plus lead equals 2026's mean |
| Progress.TruthyYearMeans | climate_edge_v3.py:197-199 | one mean per year of the range that has a non-zero reading in the window |
| Progress.BaselineMean | climate_edge_v3.py:196-200 | 12.5 exactly when no year of 2020-2023 has a non-zero window reading; otherwise the mean of the per-year means |
| Progress.Pooled | climate_edge_v3.py:206-213 | the pooled readings are empty iff no year of the range both has a long-enough series and contributes a reading |
| Progress.PooledMean | climate_edge_v3.py:215-216 | the fallback (12.5 year-to-date, 14.0 full year) exactly when nothing is pooled over 1991-2020; otherwise the pooled mean |
| Progress.Drift | climate_edge_v3.py:220-228 | for a qualifying year both windows have readings (at least 300 over the full year), and the year-to-date anomaly plus the drift is the full-year anomaly, each against its own baseline |
| Progress.Drifts | climate_edge_v3.py:218-228 | one drift per year of 2015-2024 with at least 80% of the window and 300 of the first 365 entries present |
| Progress.SampleVariance | climate_edge_v3.py:238 | the sample variance of at least two drifts is never negative |
| Progress.HistoricalVariability | climate_edge_v3.py:237-241 | `samples` counts the qualifying years; the mean drift is 0 with no samples and otherwise the mean of the drifts; the std is 0.15 with at most one sample and otherwise `sqrt` of the sample variance of the drifts |
| Progress.Progress2026 | climate_edge_v3.py:171-242 | `None` iff 2026 has no reading; otherwise the day count is the number of readings, the latest temperature is the last of the filtered readings, the raw anomaly plus the baseline gives 2026's mean, and the comparisons and variability use that day count |
| Progress.LatestIsLastReading | climate_edge_v3.py:232 | the latest temperature is the last non-null 2026 entry: every entry after it is missing |
| Progress.InteriorGapIsSkipped | climate_edge_v3.py:174-179 | the series 13.0, null, 13.2 counts two days |
| MonteCarlo.Rank | climate_edge_v3.py:311-320 | rank in 1..6: 1 iff ahead of 2024; 2 iff not, but ahead of 2023; 3 iff behind both and more than 0.02 ahead of 2020; 4 or 5 in (-0.03, 0.02]; 5 or 6 below that |
| MonteCarlo.LeadOverWindowMean | climate_edge_v3.py:297-299 | read from the progress comparisons, the lead over a compared year is 2026's mean minus that year's window mean, positive iff 2026 is warmer; a year without a comparison leads by 0 |
| MonteCarlo.Adjustment | climate_edge_v3.py:303-305 | drift plus noise plus the ENSO term; with `u` in [0.5, 1.5] the ENSO term lies between 0.5 and 1.5 times the impact, and a zero impact adds nothing |
| MonteCarlo.TrialRank | climate_edge_v3.py:303-320 | a trial ranks first iff its adjusted lead over 2024 is positive |
| MonteCarlo.Setup | climate_edge_v3.py:289-299 | no setup iff more than 365 days have passed; otherwise the three leads, drift, ENSO impact, and std·sqrt(remaining/365) |
| MonteCarlo.MonteCarloRanking | climate_edge_v3.py:287-324 | no result iff more than 365 days have passed or there are no trials; otherwise six shares in [0, 1] summing to 1, share `k` being the fraction of trials at rank `k+1` |
| MonteCarlo.AllTrialsAheadOf2024 | climate_edge_v3.py:301-324 | if every trial leaves 2026 ahead of 2024, rank 1 gets probability 1 and all other ranks 0 |
| MonteCarlo.RankTableOfRanking | climate_edge_v3.py:301-324 | the `{rank: probability}` table of a ranking has exactly the keys 1..6; rank `r` maps to the fraction of trials at rank `r`, a value in [0, 1], and the six values add up to 1 |
| Trend.DirectionOf | climate_edge_v3.py:283 | warming iff trend > 0.1, cooling iff trend < -0.1, stable iff within [-0.1, 0.1] |
| Trend.RecentTrend | climate_edge_v3.py:267-275 | no trend iff no recent days; without earlier days the trend is 0; otherwise trend plus the earlier mean equals the recent mean |
| Trend.DirectionSymmetric | climate_edge_v3.py:272-283 | negating a trend swaps warming and cooling; a trend with no earlier days is stable |
| Edges.Lower | climate_edge_v3.py:368 | `str.lower` on ASCII keeps the length and lowers each letter |
| Edges.FirstMatch | climate_edge_v3.py:372-376 | `None` iff no pattern occurs in the question; otherwise the rank of a pattern that occurs, with no pattern earlier in the table occurring |
| Edges.QuestionRank | climate_edge_v3.py:368-380 | rank 6 when the lower-cased question has "sixth" and "or lower"; otherwise the first matching pattern's rank |
| Edges.ConfidenceOf | climate_edge_v3.py:391 | HIGH iff |edge| > 15, MEDIUM iff 8 < |edge| <= 15, LOW iff |edge| <= 8 |
| Edges.RowFor | climate_edge_v3.py:364-394 | no row iff there is no price or no rank; otherwise market plus edge equals our probability, both in percent; BUY YES iff edge > 0, BUY NO iff edge <= 0; the market's own fields are copied |
| Edges.Rows | climate_edge_v3.py:363-394 | as many rows as markets that get one, each row coming from some market |
| Edges.RowOptions | climate_edge_v3.py:364-394 | position `i` holds the candidate row of market `i` |
| Edges.RowsInMarketOrder | climate_edge_v3.py:363-394 | the rows are the markets' candidate rows with the rowless markets dropped: one per market that gets one, in market order, with matching multiplicity |
| Edges.CalculateEdges | climate_edge_v3.py:356-396 | a permutation of the rows (and so, by `Edges.RowsInMarketOrder`, of the markets' rows), ordered by non-increasing |edge| |
| Edges.CalculateEdgesIsStable | climate_edge_v3.py:396 | rows with equal |edge| keep their market order |
| Edges.SourceTableReadsHottestYearFirst | climate_edge_v3.py:357-376 | with the source's table, any question containing "hottest year" (and not "sixth ... or lower") resolves to rank 1 |
| Edges.SecondHottestYearReadAsFirst | climate_edge_v3.py:357-376 | "second-hottest year" contains "second-hottest" yet resolves to rank 1 with the source's table |
| Edges.CorrectedTableHonoursOrdinal | climate_edge_v3.py:357-376 | with the corrected table, the first pattern that occurs decides, and "hottest year" only decides when no ordinal pattern occurs |
| Edges.SecondHottestYearReadAsSecond | climate_edge_v3.py:357-376 | "second-hottest year" resolves to rank 2 with the corrected table |
| January.TempBracket | january_2026_analysis.py:79-84 | the bracket returned contains the anomaly, and no other bracket does |
| January.BracketMonotone | january_2026_analysis.py:34-41 | a warmer anomaly never falls in an earlier bracket |
| January.RankLabel | january_2026_analysis.py:65-74 | rank at most 1 is "1st hottest", 2 is "2nd", 3 is "3rd", anything else "4th or lower" |
| January.ScanFromFirstBeaten | january_2026_analysis.py:65-76 | on any table the scan answers with the label of the first entry the anomaly beats, counted from the starting rank, and "4th or lower" when it beats none |
| January.ScanCountsWarmer | january_2026_analysis.py:63-76 | scanning a warmest-first table, the first entry the anomaly beats sits after exactly the entries at least as warm |
| January.WarmerCountOfShape | january_2026_analysis.py:24-31 | in a table topped by 1.38 and 1.25, with 1.18 next: no entry at least as warm above 1.38, one up to 1.38, two up to 1.25, three or more from 1.18 down |
| January.JanuaryRanking | january_2026_analysis.py:61-76 | the rank label is that of one plus the number of past Januaries at least as warm; "4th or lower" when the anomaly beats none |
| January.RankingOfShape | january_2026_analysis.py:61-76 | on a GISS-shaped table: 1st iff > 1.38, 2nd iff in (1.25, 1.38], 3rd iff in (1.18, 1.25], 4th or lower iff <= 1.18 |
| January.HistoricalTableShape | january_2026_analysis.py:24-31 | the table has 30 years, 2025 = 1.38 and 2024 = 1.25 lead, and every other year is at most 1.18 = 2020 |
| January.HistoricalRankBands | january_2026_analysis.py:61-76 | the four ranking bands hold for the source's own table |
| January.KellyRatio | january_2026_analysis.py:147 | for a positive edge and a price below 1, the ratio is positive and times (1 - price) gives back the edge |
| January.CalculateEdge | january_2026_analysis.py:141-156 | edge plus price gives our probability, and edge_pct is 100·edge; BUY YES iff edge > 0, BUY NO iff edge < -0.05, PASS otherwise; Kelly in [0, 0.25]: 0 when edge <= 0 or price >= 1, otherwise min(ratio, 0.25) |
| January.Action | january_2026_analysis.py:211-213 | PASS when |edge| < 0.03, otherwise the direction |
| January.ActionBands | january_2026_analysis.py:207-230 | the action is BUY YES iff edge >= 0.03, BUY NO iff edge < -0.05, PASS iff in [-0.05, 0.03) |
| January.Simulate | january_2026_analysis.py:188-198 | six bracket shares and four rank shares, each in [0, 1] and each table summing to 1; share `c` is the fraction of draws whose simulated anomaly falls in outcome `c` |
| January.CertainEstimate | january_2026_analysis.py:188-198 | with zero uncertainty the estimate's own bracket gets probability 1 |
| January.SampleReadings | january_2026_analysis.py:102-121 | the pooled readings are exactly the present values of all points, empty iff no point has one |
| January.SampleReadingsInOrder | january_2026_analysis.py:102-121 | the pooled readings are the non-null values of the points' lists concatenated in point order, with their multiplicities |
| January.JanMean | january_2026_analysis.py:101-122 | `None` iff no point has a reading; otherwise the mean of all pooled readings |
| January.JanMeanWithinReadings | january_2026_analysis.py:101-122 | the mean lies within any band that holds every reading |
| January.EstimateFromOpenMeteo | january_2026_analysis.py:128-138 | no estimate iff either mean is missing or zero; otherwise the estimate minus 1.38 equals the year-on-year change, with uncertainty 0.30 |
| January.EstimateFollowsChange | january_2026_analysis.py:131-133 | equal means give 1.38, and a larger change gives a larger estimate |
| January.ZeroMeanDiscardsEstimate | january_2026_analysis.py:128-129 | a 2026 mean of exactly 0 discards the estimate |
| January.MarketRows | january_2026_analysis.py:207-233 | one row per outcome, in table order, holding the price, the simulated share, the edge information and the action |
| January.TempPrices | january_2026_analysis.py:44-51 | the six bracket prices in bracket order, each a probability strictly between 0 and 1 |
| January.RankPrices | january_2026_analysis.py:53-58 | the four ranking prices in rank order, each a probability strictly between 0 and 1 |
| January.PriceTotals | january_2026_analysis.py:44-58 | the bracket prices add up to 1.0185 (an overround of 1.85 points), the ranking prices to exactly 1 |
| January.RunAnalysis | january_2026_analysis.py:159-233 | the estimate falls back to 1.05 ± 0.40 when missing; the bracket contains it; the ranking, simulation and both market tables are computed from it |
| Era5t.FromEra5t | era5t_january2026.py:143-144 | the ERA5T calibration is undone by `Era5tMeanFor`, gives 0.9 exactly at 12.0 degrees and more than 0.9 exactly above it |
| Era5t.FromOpenMeteo | era5t_january2026.py:150-151 | the Open-Meteo calibration is undone by `OpenMeteoMeanFor`, gives 0.9 exactly at 10.0 degrees and more than 0.9 exactly above it |
| Era5t.EstimateGiss | era5t_january2026.py:130-154 | none iff neither mean is given; an ERA5T mean wins, with estimate - 0.9 = 0.8·(mean - 12); otherwise estimate - 0.9 = 0.1·(mean - 10), tagged by source |
| Era5t.CalibrationsAnchoredAndInvertible | era5t_january2026.py:143-152 | both calibrations give 0.9 at their baseline, are strictly increasing, and are inverted by the matching mean-for-anomaly function |
| Era5t.DaysAvailable | era5t_january2026.py:166-172 | during January 2026, one less than today's day; 31 after January 2026; 0 before it |
| Era5t.Era5tDays | era5t_january2026.py:174-175 | never more than the available days; five fewer from 5 days on, otherwise 0 |
| Era5t.DaysAvailableMonotone | era5t_january2026.py:167-172 | available days never decrease as the date advances, never exceed 31, and during January stay below the day of the month |
| Era5t.GatesNest | era5t_january2026.py:185-207 | ERA5T is requested iff at least 15 days are available, and then Open-Meteo is requested too |
| Era5t.Estimates | era5t_january2026.py:223-235 | at most two estimates, all non-zero with positive weight; ERA5T's (weight 0.7, first) is present iff its gate is open, its mean came back and its estimate is non-zero; likewise Open-Meteo's (weight 0.3), which also needs a non-zero mean |
| Era5t.Weigh | era5t_january2026.py:227-234 | an estimate is kept iff it is non-zero |
| Era5t.FinalEstimate | era5t_january2026.py:237-240 | none iff there are no estimates; otherwise the result times the total weight is the weighted sum |
| Era5t.FinalWithinEstimates | era5t_january2026.py:237-240 | the combined estimate lies within any band holding every estimate, so between their minimum and maximum |
| Era5t.FinalOfOneOrTwo | era5t_january2026.py:226-240 | both sources give 0.7·ERA5T + 0.3·Open-Meteo; one source gives its own estimate |
| Era5t.RankOf | era5t_january2026.py:258-260 | rank = 1 + the number of past values strictly warmer, in 1..len+1, and 1 iff no past value is warmer |
| Era5t.RankOneFromRecord | era5t_january2026.py:258-260 | rank 1 is reached exactly from the record value up |
| Era5t.SourceHistoryShape | era5t_january2026.py:15-26 | ten past Januaries, with the 2025 record of 1.38 the warmest |
| Era5t.SourceHistoryRanks | era5t_january2026.py:258-260 | against the ten past Januaries the rank is in 1..11, and 1 iff the estimate is at least 1.38 |
| Era5t.CrossCheck | era5t_january2026.py:162-260 | the days, ERA5T days, estimates and final estimate follow the rules above; the rank is 1 + the count of warmer past values, and with fewer than 5 days there is no estimate |
| Era5Fetcher.BaselineTableShape | era5_fetcher.py:163-176 | 12 monthly baselines, all within [287.0, 289.6], January 287.0 |
| Era5Fetcher.MonthBaseline | era5_fetcher.py:190 | the baseline is within [287.0, 289.6], 287.0 only for January, and the fallback 288.0 exactly for a month outside 1..12 |
| Era5Fetcher.Era5ToAnomaly | era5_fetcher.py:179-191 | the anomaly plus the month's baseline (288.0 for a month outside 1..12) gives back the global mean |
| Era5Fetcher.AnomalyIncreasing | era5_fetcher.py:190-191 | a warmer global mean gives a strictly larger anomaly for the same month |
| Era5Fetcher.DayRange | era5_fetcher.py:98 | `list(range(1, n + 1))`: `n` days (none for n <= 0), ascending from 1 |
| Era5Fetcher.SelectDays | era5_fetcher.py:93-112 | an explicit non-empty list is kept; an explicit empty list fails (`days[0]` raises IndexError), and no request ever goes ahead with an empty list. Otherwise: the cutoff month gives days 1..cutoff.day; an earlier month gives every day of the month; a month out of range raises; a later month is not yet available. Every day chosen is at most the cutoff |
| Era5Fetcher.SelectDaysOn | era5_fetcher.py:93-112 | an explicit list is handled as above; otherwise the cutoff is the date five days before today; the subtraction fails only within five days of 0001-01-01 |

## Left out

- Fetching is not modelled: `curl` via `subprocess`, `requests`, `cdsapi` retrievals, the credential-file check and `time.sleep`. The values they would return are parameters.
- NetCDF reading and numpy reductions (`analyze_era5t_file`, `calculate_global_mean`) are not modelled, nor is the cos-latitude and per-point weighting of the Open-Meteo samples. They are foreign libraries over floating point; the resulting means are parameters.
- Parsing ONI text with `float()` and dates with `datetime.strptime` is not modelled. Readings arrive parsed and "today" arrives as a date.
- `math.sqrt` and the square root inside `statistics.stdev` are not modelled; they are the parameter `sqrt`.
- IEEE rounding is not modelled; all arithmetic is exact.
- Nothing is claimed about the distribution of `random.gauss`, `random.uniform` or `random.choice`. Draws are inputs.
- `get_openmeteo_trend` is modelled only from the recent and earlier temperature lists onward. Its split of the days by day of year relative to ERA5 coverage uses `datetime` and is left out.
- JSON persistence, console printing and the textual "market implications" messages are not modelled.
- Progress.TruthyYearMeans: states the number of means, not their values, because the only caller consumes them through `BaselineMean`, whose contract names their mean.
- Progress.Pooled: states when the pool is empty, not its contents, because `PooledMean` only needs that split.
- Progress.Drifts: states the number of drifts, not each drift value, because the drift formula is `Drift`, which the list applies year by year.
- Edges.Lower: lowers ASCII letters only. Python's `str.lower` also maps other letters (for example U+212A KELVIN SIGN to 'k'); market questions are taken to be ASCII.
- Common.IsDigits: ASCII digits only, like `DigitsValue`; `str.isdigit` and `int` also accept other Unicode digits. Year names are always ASCII digit strings.
- MonteCarlo.Rank: for the two bands decided by `random.choice`, states only the pair of ranks the coin picks from.

## Findings

| source | as written | input that shows it | evidently intended | confidence | as-written member | corrected member |
|---|---|---|---|---|---|---|
| climate_edge_v3.py:357-376 | "hottest year" is the first pattern tried, and it also occurs inside "second-hottest year", "third-hottest year" and so on | the question "second-hottest year" resolves to rank 1 | ordinal patterns are tried before the generic "hottest year", so the question resolves to rank 2 | high; not executed | Edges.SecondHottestYearReadAsFirst | Edges.SecondHottestYearReadAsSecond |
| climate_edge_v3.py:157 | the latest ONI period is the maximum of (year, season text), and "SON" sorts after the later seasons "OND" and "NDJ" | readings SON 2025 = -0.5 and OND 2025 = -0.6 make SON 2025 the latest | the chronologically latest season (OND 2025) | medium; not executed | Enso.SeasonTextMisordersLateYear | Enso.ChronologicalPicksLaterSeason |

`Edges.CalculateEdges` takes the pattern table as a parameter. `Edges.CorrectedRankPatterns` is the corrected table; `Edges.SourceRankPatterns` is the table as written. The ENSO state reaches the Monte Carlo model as an `EnsoState` value, which `Enso.CurrentEnsoStateChronological` provides for the corrected choice.

=== FILE: calendar.dfy ===
/** Proleptic Gregorian dates as Python's `datetime` and `calendar` modules
    see them: month lengths with the leap-year rule, day ordinals in the style
    of `date.toordinal()`, and subtraction of whole days (`d - timedelta(days=n)`). */
module Calendar {
  import opened Common

  datatype Date = Date(year: int, month: int, day: int)

  /** `calendar.isleap`. */
  predicate IsLeapYear(y: int) {
    y % 4 == 0 && (y % 100 != 0 || y % 400 == 0)
  }

  /** `calendar.monthrange(y, m)[1]`. */
  function MonthLength(y: int, m: int): (n: int)
    requires 1 <= m <= 12
    ensures 28 <= n <= 31
    ensures n == 29 <==> m == 2 && IsLeapYear(y)
    ensures n == 28 <==> m == 2 && !IsLeapYear(y)
    ensures n == 30 <==> m in {4, 6, 9, 11}
  {
    if m == 2 then (if IsLeapYear(y) then 29 else 28)
    else if m == 4 || m == 6 || m == 9 || m == 11 then 30
    else 31
  }

  function YearLength(y: int): int {
    if IsLeapYear(y) then 366 else 365
  }

  /** Days in the months of year `y` that precede month `m`. */
  function DaysBeforeMonth(y: int, m: int): (n: int)
    requires 1 <= m <= 13
    ensures 28 * (m - 1) <= n <= 31 * (m - 1)
  {
    if m == 1 then 0 else DaysBeforeMonth(y, m - 1) + MonthLength(y, m - 1)
  }

  /** The twelve month lengths add up to the length of the year. */
  lemma MonthsFillYear(y: int)
    ensures DaysBeforeMonth(y, 13) == YearLength(y)
  {
    assert DaysBeforeMonth(y, 2) == DaysBeforeMonth(y, 1) + MonthLength(y, 1);
    assert DaysBeforeMonth(y, 3) == DaysBeforeMonth(y, 2) + MonthLength(y, 2);
    assert DaysBeforeMonth(y, 4) == DaysBeforeMonth(y, 3) + MonthLength(y, 3);
    assert DaysBeforeMonth(y, 5) == DaysBeforeMonth(y, 4) + MonthLength(y, 4);
    assert DaysBeforeMonth(y, 6) == DaysBeforeMonth(y, 5) + MonthLength(y, 5);
    assert DaysBeforeMonth(y, 7) == DaysBeforeMonth(y, 6) + MonthLength(y, 6);
    assert DaysBeforeMonth(y, 8) == DaysBeforeMonth(y, 7) + MonthLength(y, 7);
    assert DaysBeforeMonth(y, 9) == DaysBeforeMonth(y, 8) + MonthLength(y, 8);
    assert DaysBeforeMonth(y, 10) == DaysBeforeMonth(y, 9) + MonthLength(y, 9);
    assert DaysBeforeMonth(y, 11) == DaysBeforeMonth(y, 10) + MonthLength(y, 10);
    assert DaysBeforeMonth(y, 12) == DaysBeforeMonth(y, 11) + MonthLength(y, 11);
    assert DaysBeforeMonth(y, 13) == DaysBeforeMonth(y, 12) + MonthLength(y, 12);
  }

  /** Days in the years 1 .. y-1. */
  function DaysBeforeYear(y: int): (n: int)
    requires y >= 1
    ensures n >= 0
  {
    if y == 1 then 0 else DaysBeforeYear(y - 1) + YearLength(y - 1)
  }

  /** The Gregorian count: 365 days a year plus one for every fourth year,
      less the centuries, plus every fourth century. */
  lemma {:induction false} DaysBeforeYearClosedForm(y: int)
    requires y >= 1
    ensures DaysBeforeYear(y) == 365 * (y - 1) + (y - 1) / 4 - (y - 1) / 100 + (y - 1) / 400
  {
    if y > 1 {
      DaysBeforeYearClosedForm(y - 1);
      LeapDayCount(y - 2);
    }
  }

  /** Year `k + 1` has a leap day exactly when the count of multiples of 4,
      less those of 100, plus those of 400 goes up from `k` to `k + 1`. */
  lemma LeapDayCount(k: nat)
    ensures YearLength(k + 1) == 365 + ((k + 1) / 4 - k / 4) - ((k + 1) / 100 - k / 100) + ((k + 1) / 400 - k / 400)
  {
    var x := k + 1;
    DivStep(k, 4);
    DivStep(k, 100);
    DivStep(k, 400);
    DivisorsNest(x);
    if x % 400 == 0 {
      assert IsLeapYear(x);
    } else if x % 100 == 0 {
      assert !IsLeapYear(x);
    } else if x % 4 == 0 {
      assert IsLeapYear(x);
    } else {
      assert !IsLeapYear(x);
    }
  }

  /** Every multiple of 400 is one of 100, and every multiple of 100 one of 4. */
  lemma DivisorsNest(x: nat)
    ensures x % 400 == 0 ==> x % 100 == 0
    ensures x % 100 == 0 ==> x % 4 == 0
  {
    if x % 400 == 0 {
      MultipleOf400(x / 400);
    }
    if x % 100 == 0 {
      MultipleOf100(x / 100);
    }
  }

  lemma MultipleOf400(q: nat)
    ensures (400 * q) % 100 == 0
  {
  }

  lemma MultipleOf100(q: nat)
    ensures (100 * q) % 4 == 0
  {
  }

  /** From `k` to `k + 1`, the quotient by `d` goes up by one exactly when `d`
      divides `k + 1`. */
  lemma DivStep(k: nat, d: int)
    requires d == 4 || d == 100 || d == 400
    ensures (k + 1) / d - k / d == if (k + 1) % d == 0 then 1 else 0
  {
    if d == 4 {
      assert (k + 1) / 4 - k / 4 == if (k + 1) % 4 == 0 then 1 else 0;
    } else if d == 100 {
      assert (k + 1) / 100 - k / 100 == if (k + 1) % 100 == 0 then 1 else 0;
    } else {
      assert (k + 1) / 400 - k / 400 == if (k + 1) % 400 == 0 then 1 else 0;
    }
  }

  /** A date `datetime` accepts: years 1..9999 and a day inside its month. */
  predicate ValidDate(d: Date) {
    1 <= d.year <= 9999 && 1 <= d.month <= 12 && 1 <= d.day <= MonthLength(d.year, d.month)
  }

  /** `date.toordinal()`: 0001-01-01 is day 1. */
  function Ordinal(d: Date): int
    requires ValidDate(d)
  {
    DaysBeforeYear(d.year) + DaysBeforeMonth(d.year, d.month) + d.day
  }

  /** The calendar day before `d`, or `None` before 0001-01-01 (where Python
      raises `OverflowError`). */
  function PreviousDay(d: Date): (r: Option<Date>)
    requires ValidDate(d)
    ensures r.None? <==> d == Date(1, 1, 1)
    ensures r.Some? ==> ValidDate(r.value) && Ordinal(r.value) == Ordinal(d) - 1
  {
    if d.day > 1 then Some(Date(d.year, d.month, d.day - 1))
    else if d.month > 1 then Some(Date(d.year, d.month - 1, MonthLength(d.year, d.month - 1)))
    else if d.year > 1 then
      MonthsFillYear(d.year - 1);
      Some(Date(d.year - 1, 12, 31))
    else None
  }

  /** `d - timedelta(days=n)`. */
  function MinusDays(d: Date, n: nat): (r: Option<Date>)
    requires ValidDate(d)
    ensures r.None? <==> Ordinal(d) <= n
    ensures r.Some? ==> ValidDate(r.value) && Ordinal(r.value) == Ordinal(d) - n
    decreases n
  {
    if n == 0 then Some(d)
    else
      match PreviousDay(d)
      case None => None
      case Some(p) => MinusDays(p, n - 1)
  }

  /** Tuple comparison `(y1, m1) < (y2, m2)`. */
  predicate MonthBefore(y1: int, m1: int, y2: int, m2: int) {
    y1 < y2 || (y1 == y2 && m1 < m2)
  }

  /** Tuple comparison `(y1, m1, d1) <= (y2, m2, d2)`. */
  predicate DateAtMost(a: Date, b: Date) {
    MonthBefore(a.year, a.month, b.year, b.month)
    || (a.year == b.year && a.month == b.month && a.day <= b.day)
  }
}

=== FILE: common.dfy ===
/** Shared vocabulary of the model: optional values, sums and means over exact
    reals, and the few Python list idioms the scripts lean on (filtering out
    nulls, truthiness filters, clamped slices, counting, decimal year names).
    All arithmetic is exact: `real` stands for the scripts' floats. */
module Common {

  /** Python's `None` or a value. */
  datatype Option<+T> = None | Some(value: T) {
    /** `d.get(k, default)`-style access. */
    function GetOr(default: T): T {
      match this
      case Some(v) => v
      case None => default
    }
  }

  /** A trade signal; `Pass` only arises in the January analysis. */
  datatype Direction = BuyYes | BuyNo | Pass

  datatype Confidence = High | Medium | Low

  function Abs(x: real): real {
    if x < 0.0 then -x else x
  }

  function Min(x: real, y: real): real {
    if x <= y then x else y
  }

  function Max(x: real, y: real): real {
    if x >= y then x else y
  }

  /** Sum of a sequence of reals. */
  function Sum(s: seq<real>): real {
    if |s| == 0 then 0.0 else s[0] + Sum(s[1..])
  }

  lemma {:induction false} SumAppend(a: seq<real>, b: seq<real>)
    ensures Sum(a + b) == Sum(a) + Sum(b)
  {
    if |a| == 0 {
      assert a + b == b;
    } else {
      assert (a + b)[1..] == a[1..] + b;
      SumAppend(a[1..], b);
    }
  }

  /** `statistics.mean` on a non-empty list. */
  function Mean(s: seq<real>): real
    requires |s| > 0
  {
    Sum(s) / (|s| as real)
  }

  function SumNat(s: seq<nat>): nat {
    if |s| == 0 then 0 else s[0] + SumNat(s[1..])
  }

  /** How many elements of `s` satisfy `p`. */
  function CountWhere<T>(s: seq<T>, p: T -> bool): (n: nat)
    ensures n <= |s|
  {
    if |s| == 0 then 0 else (if p(s[0]) then 1 else 0) + CountWhere(s[1..], p)
  }

  lemma {:induction false} CountWhereAppend<T>(a: seq<T>, b: seq<T>, p: T -> bool)
    ensures CountWhere(a + b, p) == CountWhere(a, p) + CountWhere(b, p)
  {
    if |a| == 0 {
      assert a + b == b;
    } else {
      assert (a + b)[1..] == a[1..] + b;
      CountWhereAppend(a[1..], b, p);
    }
  }

  /** A count depends only on the multiset of elements, not on their order. */
  lemma {:induction false} CountWherePermutation<T>(a: seq<T>, b: seq<T>, p: T -> bool)
    requires multiset(a) == multiset(b)
    ensures CountWhere(a, p) == CountWhere(b, p)
    decreases |a|
  {
    if |a| == 0 {
      assert |b| == |multiset(b)| == 0;
    } else {
      var x := a[0];
      assert x in multiset(a);
      var k :| 0 <= k < |b| && b[k] == x;
      var left, right := b[..k], b[k + 1..];
      assert b == left + [x] + right;
      MultisetRemoveFirst(a, left, right);
      CountWherePermutation(a[1..], left + right, p);
      CountWhereSplit(left, x, right, p);
      CountWhereAppend([x], a[1..], p);
      assert a == [x] + a[1..];
    }
  }

  /** Taking the first element of `a` out of both sides of a multiset
      equality leaves the rest of `a` equal to the rest of `b`. */
  lemma MultisetRemoveFirst<T>(a: seq<T>, left: seq<T>, right: seq<T>)
    requires |a| > 0
    requires multiset(a) == multiset(left + [a[0]] + right)
    ensures multiset(a[1..]) == multiset(left + right)
  {
    var x := a[0];
    assert a == [x] + a[1..];
    assert multiset(a) == multiset{x} + multiset(a[1..]);
    assert multiset(left + [x] + right) == multiset(left) + multiset{x} + multiset(right);
    assert multiset(left + right) == multiset(left) + multiset(right);
    assert multiset(a[1..]) == (multiset{x} + multiset(a[1..])) - multiset{x};
  }

  /** Counting over `left + [x] + right` is counting `x` and then the rest. */
  lemma CountWhereSplit<T>(left: seq<T>, x: T, right: seq<T>, p: T -> bool)
    ensures CountWhere(left + [x] + right, p) == CountWhere([x], p) + CountWhere(left + right, p)
  {
    CountWhereAppend(left + [x], right, p);
    CountWhereAppend(left, [x], p);
    CountWhereAppend(left, right, p);
  }

  lemma {:induction false} CountWhereNone<T>(s: seq<T>, p: T -> bool)
    requires forall i :: 0 <= i < |s| ==> !p(s[i])
    ensures CountWhere(s, p) == 0
  {
    if |s| > 0 {
      CountWhereNone(s[1..], p);
    }
  }

  lemma {:induction false} CountWhereAll<T>(s: seq<T>, p: T -> bool)
    requires forall i :: 0 <= i < |s| ==> p(s[i])
    ensures CountWhere(s, p) == |s|
  {
    if |s| > 0 {
      CountWhereAll(s[1..], p);
    }
  }

  lemma {:induction false} CountWherePositive<T>(s: seq<T>, p: T -> bool, i: nat)
    requires i < |s| && p(s[i])
    ensures CountWhere(s, p) >= 1
  {
    if i > 0 {
      CountWherePositive(s[1..], p, i - 1);
    }
  }

  /** Index of the first element of `s` satisfying `p`: the `for ... if ...:
      return` scan. */
  function FirstIndex<T>(s: seq<T>, p: T -> bool): (r: Option<nat>)
    ensures r.None? <==> forall i :: 0 <= i < |s| ==> !p(s[i])
    ensures r.Some? ==> r.value < |s| && p(s[r.value]) && forall j :: 0 <= j < r.value ==> !p(s[j])
  {
    if |s| == 0 then None
    else if p(s[0]) then Some(0)
    else
      match FirstIndex(s[1..], p)
      case None => None
      case Some(k) => Some(k + 1)
  }

  lemma {:induction false} SumBounds(s: seq<real>, lo: real, hi: real)
    requires forall i :: 0 <= i < |s| ==> lo <= s[i] <= hi
    ensures |s| as real * lo <= Sum(s) <= |s| as real * hi
  {
    if |s| > 0 {
      SumBounds(s[1..], lo, hi);
    }
  }

  /** A mean lies between any lower and upper bound of its elements. */
  lemma MeanBounds(s: seq<real>, lo: real, hi: real)
    requires |s| > 0
    requires forall i :: 0 <= i < |s| ==> lo <= s[i] <= hi
    ensures lo <= Mean(s) <= hi
  {
    SumBounds(s, lo, hi);
    var n := |s| as real;
    assert (n * lo) / n == lo && (n * hi) / n == hi;
  }

  predicate IsPresent<T>(o: Option<T>) {
    o.Some?
  }

  /** Whether an optional value is exactly `Some(x)`. */
  function IsSome<T(==)>(x: T): Option<T> -> bool {
    (o: Option<T>) => o == Some(x)
  }

  /** `[t for t in s if t is not None]`: every present value, as often as it
      occurs and in order (`PresentAppend` and `PresentLast` give the order). */
  function Present<T(==,!new)>(s: seq<Option<T>>): (r: seq<T>)
    ensures |r| == CountWhere(s, IsPresent)
    ensures forall x :: x in r <==> Some(x) in s
    ensures |r| == 0 <==> forall i :: 0 <= i < |s| ==> s[i].None?
  {
    if |s| == 0 then []
    else
      assert s == [s[0]] + s[1..];
      (if s[0].Some? then [s[0].value] else []) + Present(s[1..])
  }

  /** Each value is kept exactly as often as it occurs in `s`. */
  lemma {:induction false} PresentCounts<T(!new)>(s: seq<Option<T>>, x: T)
    ensures multiset(Present(s))[x] == CountWhere(s, IsSome(x))
  {
    if |s| > 0 {
      PresentCounts(s[1..], x);
      var head := if s[0].Some? then [s[0].value] else [];
      assert Present(s) == head + Present(s[1..]);
      assert multiset(head + Present(s[1..])) == multiset(head) + multiset(Present(s[1..]));
    }
  }

  /** Filtering distributes over concatenation, so `Present` keeps the order
      of the values it retains. */
  lemma {:induction false} PresentAppend<T(!new)>(a: seq<Option<T>>, b: seq<Option<T>>)
    ensures Present(a + b) == Present(a) + Present(b)
  {
    if |a| == 0 {
      assert a + b == b;
    } else {
      assert (a + b)[0] == a[0];
      assert (a + b)[1..] == a[1..] + b;
      PresentAppend(a[1..], b);
    }
  }

  /** `x` is the value of the last non-null entry of `s`. */
  ghost predicate IsLastPresent<T(!new)>(s: seq<Option<T>>, x: T) {
    exists k :: 0 <= k < |s| && s[k] == Some(x) && forall j :: k < j < |s| ==> s[j].None?
  }

  /** The last value `Present` keeps is the last non-null entry of `s`. */
  lemma {:induction false} PresentLast<T(!new)>(s: seq<Option<T>>)
    requires |Present(s)| > 0
    ensures IsLastPresent(s, Present(s)[|Present(s)| - 1])
  {
    var rest := Present(s[1..]);
    var head := if s[0].Some? then [s[0].value] else [];
    assert Present(s) == head + rest;
    if |rest| > 0 {
      PresentLast(s[1..]);
      var k :| 0 <= k < |s[1..]| && s[1..][k] == Some(rest[|rest| - 1])
                && forall j :: k < j < |s[1..]| ==> s[1..][j].None?;
      assert Present(s)[|Present(s)| - 1] == rest[|rest| - 1];
      assert s[k + 1] == s[1..][k];
      forall j | k + 1 < j < |s|
        ensures s[j].None?
      {
        assert s[j] == s[1..][j - 1];
      }
    } else {
      forall j | 0 < j < |s|
        ensures s[j].None?
      {
        assert s[j] == s[1..][j - 1];
      }
      assert Present(s) == [s[0].value];
    }
  }

  /** `s` with every `Some(0.0)` turned into `None`: what Python truthiness
      treats as absent. */
  function DropZeros(s: seq<Option<real>>): (r: seq<Option<real>>)
    ensures |r| == |s|
    ensures forall i :: 0 <= i < |s| ==> r[i] == if s[i] == Some(0.0) then None else s[i]
  {
    seq(|s|, i requires 0 <= i < |s| => if s[i] == Some(0.0) then None else s[i])
  }

  /** `[t for t in s if t]`: Python truthiness drops `None` and also `0.0`;
      the rest keeps its order and multiplicity. */
  function Truthy(s: seq<Option<real>>): (r: seq<real>)
    ensures r == Present(DropZeros(s))
    ensures |r| <= |Present(s)|
    ensures forall x :: x in r <==> x != 0.0 && Some(x) in s
  {
    if |s| == 0 then []
    else
      assert s == [s[0]] + s[1..];
      assert DropZeros(s)[1..] == DropZeros(s[1..]);
      assert |Present(s)| == CountWhere(s, IsPresent);
      (if s[0].Some? && s[0].value != 0.0 then [s[0].value] else []) + Truthy(s[1..])
  }

  /** The concatenation of a list of lists: `for x in xs: out.extend(x)`. */
  function Concat<T>(ss: seq<seq<T>>): seq<T> {
    if |ss| == 0 then [] else ss[0] + Concat(ss[1..])
  }

  /** The Python slice `s[:n]`, which clamps to the length of `s`. */
  function Prefix<T>(s: seq<T>, n: nat): (r: seq<T>)
    ensures |r| == if n <= |s| then n else |s|
    ensures forall i :: 0 <= i < |r| ==> r[i] == s[i]
  {
    if n <= |s| then s[..n] else s
  }

  predicate IsDigit(c: char) {
    '0' <= c <= '9'
  }

  /** `str.isdigit()` for ASCII text: non-empty and made only of digits. */
  predicate IsDigits(s: string) {
    |s| > 0 && forall i :: 0 <= i < |s| ==> IsDigit(s[i])
  }

  /** `int(s)` for a digit string. */
  function DigitsValue(s: string): nat {
    if |s| == 0 then 0
    else DigitsValue(s[..|s| - 1]) * 10 + (if IsDigit(s[|s| - 1]) then (s[|s| - 1] - '0') as nat else 0)
  }

  function DigitChar(d: nat): char
    requires d < 10
  {
    ('0' as int + d) as char
  }

  /** `str(y)`: the decimal name of a year, without leading zeros. */
  function YearName(y: nat): (s: string)
    ensures IsDigits(s)
  {
    if y < 10 then [DigitChar(y)] else YearName(y / 10) + [DigitChar(y % 10)]
  }

  /** `int(str(y)) == y`. */
  lemma {:induction false} YearNameRoundTrip(y: nat)
    ensures DigitsValue(YearName(y)) == y
  {
    if y >= 10 {
      var s := YearName(y);
      assert s[..|s| - 1] == YearName(y / 10);
      YearNameRoundTrip(y / 10);
    }
  }

  /** The years lo .. hi-1 that satisfy `p`. */
  function YearsWhere(lo: nat, hi: nat, p: nat -> bool): set<nat> {
    set y: nat | lo <= y < hi && p(y)
  }

  /** Peeling the first year off a range of years. */
  lemma YearsWhereStep(lo: nat, hi: nat, p: nat -> bool)
    requires lo < hi
    ensures YearsWhere(lo, hi, p) == (if p(lo) then {lo} else {}) + YearsWhere(lo + 1, hi, p)
    ensures |YearsWhere(lo, hi, p)| == (if p(lo) then 1 else 0) + |YearsWhere(lo + 1, hi, p)|
  {
    var later := YearsWhere(lo + 1, hi, p);
    assert lo !in later;
    assert YearsWhere(lo, hi, p) == (if p(lo) then {lo} else {}) + later;
  }
}

=== FILE: edges.dfy ===
/** The edge table of `calculate_edges`: each priced market question is
    mapped to the rank it bets on, the model probability of that rank is set
    against the market's price, and the priced questions are listed by the
    size of the gap, largest first. */
module Edges {
  import opened Common
  import opened Sorting

  /** A market as the fetcher reports it. `yesPrice` is `None` when no "yes"
      outcome was quoted. */
  datatype Market = Market(question: string, yesPrice: Option<real>, volume: real, url: string)

  /** One row of the edge table; probabilities and the edge are in percent. */
  datatype EdgeRow = EdgeRow(
    rank: nat, question: string, marketProb: real, ourProb: real, edge: real,
    direction: Direction, confidence: Confidence, volume: real, url: string)

  /** A question fragment and the rank it denotes. */
  datatype RankPattern = RankPattern(text: string, rank: nat)

  /** |edge| (in points) above which confidence is high, and above which it is medium. */
  const HighConfidenceEdge: real := 15.0
  const MediumConfidenceEdge: real := 8.0

  /** The pattern table in the order the source lists it (a dict literal
      iterates in insertion order). */
  const SourceRankPatterns: seq<RankPattern> := [
    RankPattern("hottest year", 1), RankPattern("second-hottest", 2), RankPattern("second hottest", 2),
    RankPattern("third-hottest", 3), RankPattern("fourth-hottest", 4), RankPattern("fifth-hottest", 5),
    RankPattern("sixth-hottest", 6), RankPattern("sixth hottest", 6)]

  /** The same table with the generic "hottest year" tried last, so that an
      ordinal in the question is seen before it. */
  const CorrectedRankPatterns: seq<RankPattern> := [
    RankPattern("second-hottest", 2), RankPattern("second hottest", 2),
    RankPattern("third-hottest", 3), RankPattern("fourth-hottest", 4), RankPattern("fifth-hottest", 5),
    RankPattern("sixth-hottest", 6), RankPattern("sixth hottest", 6), RankPattern("hottest year", 1)]

  /** `str.lower` on ASCII letters. */
  function LowerChar(c: char): (l: char)
    ensures 'A' <= c <= 'Z' ==> l as int == c as int + 32
    ensures !('A' <= c <= 'Z') ==> l == c
  {
    if 'A' <= c <= 'Z' then (c as int + 32) as char else c
  }

  function Lower(s: string): (r: string)
    ensures |r| == |s|
    ensures forall i :: 0 <= i < |s| ==> r[i] == LowerChar(s[i])
  {
    if |s| == 0 then [] else [LowerChar(s[0])] + Lower(s[1..])
  }

  /** `pattern` occurs in `text` starting at index `i`. */
  predicate OccursAt(text: string, pattern: string, i: int) {
    0 <= i && i + |pattern| <= |text| && text[i..i + |pattern|] == pattern
  }

  /** Python's `pattern in text` on strings. */
  predicate Contains(text: string, pattern: string) {
    exists i :: 0 <= i <= |text| - |pattern| && OccursAt(text, pattern, i)
  }

  /** Whether a pattern occurs in the question `q`. */
  function OccursIn(q: string): RankPattern -> bool {
    (pat: RankPattern) => Contains(q, pat.text)
  }

  /** The rank of the first pattern (in table order) that occurs in `q`. */
  function FirstMatch(patterns: seq<RankPattern>, q: string): (r: Option<nat>)
    ensures r.None? <==> forall i :: 0 <= i < |patterns| ==> !Contains(q, patterns[i].text)
    ensures r.Some? ==> exists i :: 0 <= i < |patterns| && Contains(q, patterns[i].text)
                                    && r.value == patterns[i].rank
                                    && forall j :: 0 <= j < i ==> !Contains(q, patterns[j].text)
  {
    match FirstIndex(patterns, OccursIn(q))
    case None => None
    case Some(i) => Some(patterns[i].rank)
  }

  /** Whether a lower-cased question asks about "sixth ... or lower". */
  predicate SixthOrLower(lq: string) {
    Contains(lq, "sixth") && Contains(lq, "or lower")
  }

  /** The rank a question bets on: rank 6 for "sixth ... or lower", otherwise
      the first pattern found in the lower-cased question. */
  function QuestionRank(patterns: seq<RankPattern>, question: string): (r: Option<nat>)
    ensures SixthOrLower(Lower(question)) ==> r == Some(6)
    ensures !SixthOrLower(Lower(question)) ==> r == FirstMatch(patterns, Lower(question))
  {
    var lq := Lower(question);
    if SixthOrLower(lq) then Some(6) else FirstMatch(patterns, lq)
  }

  /** `mc_probs.get(r, 0)`. */
  function ProbabilityOf(probs: map<int, real>, r: int): (p: real)
    ensures r in probs ==> p == probs[r]
    ensures r !in probs ==> p == 0.0
  {
    if r in probs then probs[r] else 0.0
  }

  /** Confidence band of an edge in points. */
  function ConfidenceOf(edge: real): (c: Confidence)
    ensures c == High <==> Abs(edge) > 15.0
    ensures c == Medium <==> 8.0 < Abs(edge) <= 15.0
    ensures c == Low <==> Abs(edge) <= 8.0
  {
    if Abs(edge) > HighConfidenceEdge then High
    else if Abs(edge) > MediumConfidenceEdge then Medium
    else Low
  }

  /** The row for one market, or `None` when it has no price or its question
      names no rank. */
  function RowFor(probs: map<int, real>, patterns: seq<RankPattern>, m: Market): (e: Option<EdgeRow>)
    ensures e.None? <==> m.yesPrice.None? || QuestionRank(patterns, m.question).None?
    ensures e.Some? ==>
      var row := e.value;
      && row.rank == QuestionRank(patterns, m.question).value
      && row.question == m.question && row.volume == m.volume && row.url == m.url
      && row.marketProb == 100.0 * m.yesPrice.value
      && row.ourProb == 100.0 * ProbabilityOf(probs, row.rank)
      && row.marketProb + row.edge == row.ourProb
      && (row.direction == BuyYes <==> row.edge > 0.0)
      && (row.direction == BuyNo <==> row.edge <= 0.0)
      && row.confidence == ConfidenceOf(row.edge)
  {
    match m.yesPrice
    case None => None
    case Some(price) =>
      match QuestionRank(patterns, m.question)
      case None => None
      case Some(rank) =>
        var marketProb := price * 100.0;
        var ourProb := ProbabilityOf(probs, rank) * 100.0;
        var edge := ourProb - marketProb;
        Some(EdgeRow(rank, m.question, marketProb, ourProb, edge,
                     if edge > 0.0 then BuyYes else BuyNo, ConfidenceOf(edge), m.volume, m.url))
  }

  /** Whether a market gets a row. */
  function GetsRow(probs: map<int, real>, patterns: seq<RankPattern>): Market -> bool {
    m => RowFor(probs, patterns, m).Some?
  }

  /** The rows of the markets that get one, in market order. */
  function Rows(probs: map<int, real>, patterns: seq<RankPattern>, markets: seq<Market>): (r: seq<EdgeRow>)
    ensures |r| == CountWhere(markets, GetsRow(probs, patterns))
    ensures forall i :: 0 <= i < |r| ==>
      exists j :: 0 <= j < |markets| && RowFor(probs, patterns, markets[j]) == Some(r[i])
  {
    if |markets| == 0 then []
    else
      var rest := Rows(probs, patterns, markets[1..]);
      assert forall j :: 1 <= j < |markets| ==> markets[j] == markets[1..][j - 1];
      match RowFor(probs, patterns, markets[0])
      case None => rest
      case Some(row) => [row] + rest
  }

  /** The candidate row of every market, position by position. */
  function RowOptions(probs: map<int, real>, patterns: seq<RankPattern>, markets: seq<Market>): (r: seq<Option<EdgeRow>>)
    ensures |r| == |markets|
    ensures forall i :: 0 <= i < |markets| ==> r[i] == RowFor(probs, patterns, markets[i])
  {
    seq(|markets|, i requires 0 <= i < |markets| => RowFor(probs, patterns, markets[i]))
  }

  /** The rows are exactly the markets' rows with the rowless markets dropped:
      one row per market that gets one, in market order, so each row's
      multiplicity is the number of markets producing it. */
  lemma {:induction false} RowsInMarketOrder(probs: map<int, real>, patterns: seq<RankPattern>, markets: seq<Market>)
    ensures Rows(probs, patterns, markets) == Present(RowOptions(probs, patterns, markets))
  {
    if |markets| > 0 {
      var opts := RowOptions(probs, patterns, markets);
      assert opts[1..] == RowOptions(probs, patterns, markets[1..]);
      assert opts == [opts[0]] + opts[1..];
      RowsInMarketOrder(probs, patterns, markets[1..]);
    }
  }

  function AbsEdge(row: EdgeRow): real {
    Abs(row.edge)
  }

  /** `calculate_edges`: the rows ordered by |edge|, largest first. The result
      is a permutation of the rows, sorted, and rows with equal |edge| keep
      their market order (Python's sort is stable). */
  function CalculateEdges(probs: map<int, real>, patterns: seq<RankPattern>, markets: seq<Market>): (r: seq<EdgeRow>)
    ensures multiset(r) == multiset(Rows(probs, patterns, markets))
    ensures SortedDesc(r, AbsEdge)
    ensures forall i, j :: 0 <= i < j < |r| ==> Abs(r[i].edge) >= Abs(r[j].edge)
  {
    SortDesc(Rows(probs, patterns, markets), AbsEdge)
  }

  /** Rows with the same |edge| appear in the order of their markets. */
  lemma CalculateEdgesIsStable(probs: map<int, real>, patterns: seq<RankPattern>, markets: seq<Market>, m: real)
    ensures WithKey(CalculateEdges(probs, patterns, markets), AbsEdge, m)
         == WithKey(Rows(probs, patterns, markets), AbsEdge, m)
  {
    SortDescIsStable(Rows(probs, patterns, markets), AbsEdge, m);
  }

  // ---------------------------------------------------------------------
  // With the source's table, "hottest year" is tried first and also occurs
  // inside "second-hottest year", "third-hottest year" and so on.

  /** With the source's table, every question mentioning "hottest year" (and
      not "sixth ... or lower") resolves to rank 1, whatever ordinal it names. */
  lemma SourceTableReadsHottestYearFirst(question: string)
    requires Contains(Lower(question), "hottest year")
    requires !SixthOrLower(Lower(question))
    ensures QuestionRank(SourceRankPatterns, question) == Some(1)
  {
  }

  /** A concrete question: "second-hottest year" is filed as rank 1 although
      it names the second place. */
  lemma SecondHottestYearReadAsFirst()
    ensures Contains("second-hottest year", "second-hottest")
    ensures FirstMatch(SourceRankPatterns, "second-hottest year") == Some(1)
  {
    var q := "second-hottest year";
    assert OccursAt(q, "second-hottest", 0);
    assert OccursAt(q, "hottest year", 7);
  }

  /** With the corrected table, a question that names one ordinal pattern and
      no earlier one in the table resolves to that pattern's rank; "hottest
      year" decides only when no ordinal pattern occurs. */
  lemma CorrectedTableHonoursOrdinal(question: string, k: nat)
    requires k < |CorrectedRankPatterns|
    requires Contains(Lower(question), CorrectedRankPatterns[k].text)
    requires forall j :: 0 <= j < k ==> !Contains(Lower(question), CorrectedRankPatterns[j].text)
    requires !SixthOrLower(Lower(question))
    ensures QuestionRank(CorrectedRankPatterns, question) == Some(CorrectedRankPatterns[k].rank)
  {
    var lq := Lower(question);
    var r := FirstMatch(CorrectedRankPatterns, lq);
    assert r.Some?;
    ghost var i :| 0 <= i < |CorrectedRankPatterns| && Contains(lq, CorrectedRankPatterns[i].text)
      && r.value == CorrectedRankPatterns[i].rank
      && forall j :: 0 <= j < i ==> !Contains(lq, CorrectedRankPatterns[j].text);
    assert i == k;
  }

  /** The same question with the corrected table: rank 2. */
  lemma SecondHottestYearReadAsSecond()
    ensures FirstMatch(CorrectedRankPatterns, "second-hottest year") == Some(2)
  {
    assert OccursAt("second-hottest year", "second-hottest", 0);
  }
}

=== FILE: enso.dfy ===
/** ENSO state from Oceanic Nino Index readings (`get_current_enso_state`):
    pick the latest reading and classify it into El Nino, La Nina or neutral
    with a signed impact on the expected anomaly. Readings arrive already
    parsed, in the order of the index file; parsing is not modelled. */
module Enso {
  import opened Common

  /** A reading's key `"{season}_{year}"`, split into its two parts. */
  datatype Period = Period(season: string, year: int)

  datatype Reading = Reading(period: Period, oni: real)

  datatype Phase = ElNino | LaNina | Neutral

  datatype EnsoState = EnsoState(phase: Phase, oni: real, period: Option<Period>, impact: real)

  /** Anomaly impact per unit of ONI. */
  const Sensitivity: real := 0.08

  /** |ONI| at or beyond which a phase is declared. */
  const PhaseThreshold: real := 0.5

  /** Python's `<` on strings: lexicographic by character, a proper prefix first. */
  predicate TextBefore(a: string, b: string) {
    if |a| == 0 then |b| > 0
    else if |b| == 0 then false
    else if a[0] != b[0] then a[0] < b[0]
    else TextBefore(a[1..], b[1..])
  }

  lemma {:induction false} TextBeforeTransitive(a: string, b: string, c: string)
    requires TextBefore(a, b) && TextBefore(b, c)
    ensures TextBefore(a, c)
  {
    if |a| > 0 && a[0] == b[0] && b[0] == c[0] {
      TextBeforeTransitive(a[1..], b[1..], c[1..]);
    }
  }

  /** The key order of the source: `(int(year), season)` compared as a tuple. */
  predicate KeyBefore(p: Period, q: Period) {
    p.year < q.year || (p.year == q.year && TextBefore(p.season, q.season))
  }

  /** `max(readings, key=...)`: scanning in order, a later reading replaces
      the current best only when it is strictly greater. */
  function LatestBy(readings: seq<Reading>, before: (Period, Period) -> bool): (r: Reading)
    requires |readings| > 0
    ensures r in readings
  {
    if |readings| == 1 then readings[0]
    else
      var best := LatestBy(readings[..|readings| - 1], before);
      var last := readings[|readings| - 1];
      if before(best.period, last.period) then last else best
  }

  /** For a strict order (irreflexive and transitive), no reading comes
      strictly after the chosen one. */
  lemma {:induction false} LatestByIsMaximal(readings: seq<Reading>, before: (Period, Period) -> bool)
    requires |readings| > 0
    requires forall p :: !before(p, p)
    requires forall p, q, s :: before(p, q) && before(q, s) ==> before(p, s)
    ensures forall i :: 0 <= i < |readings| ==> !before(LatestBy(readings, before).period, readings[i].period)
  {
    if |readings| > 1 {
      var init := readings[..|readings| - 1];
      var best := LatestBy(init, before);
      var last := readings[|readings| - 1];
      LatestByIsMaximal(init, before);
      forall i | 0 <= i < |readings|
        ensures !before(LatestBy(readings, before).period, readings[i].period)
      {
        if i < |readings| - 1 {
          assert readings[i] == init[i];
          assert !before(best.period, readings[i].period);
        }
      }
    }
  }

  lemma {:induction false} TextBeforeIrreflexive(a: string)
    ensures !TextBefore(a, a)
  {
    if |a| > 0 {
      TextBeforeIrreflexive(a[1..]);
    }
  }

  /** The reading `get_current_enso_state` treats as latest. */
  function LatestReading(readings: seq<Reading>): (r: Reading)
    requires |readings| > 0
    ensures r in readings
    ensures forall i :: 0 <= i < |readings| ==> !KeyBefore(r.period, readings[i].period)
  {
    forall p ensures !KeyBefore(p, p) {
      TextBeforeIrreflexive(p.season);
    }
    forall p, q, s | KeyBefore(p, q) && KeyBefore(q, s)
      ensures KeyBefore(p, s)
    {
      if p.year == q.year == s.year {
        TextBeforeTransitive(p.season, q.season, s.season);
      }
    }
    LatestByIsMaximal(readings, KeyBefore);
    LatestBy(readings, KeyBefore)
  }

  /** Impact of an ONI value: proportional to it outside the neutral band
      (-0.5, 0.5), zero inside. */
  function Impact(oni: real): (i: real)
    ensures i > 0.0 <==> oni >= 0.5
    ensures i < 0.0 <==> oni <= -0.5
    ensures i != 0.0 ==> i == 0.08 * oni
  {
    if oni >= PhaseThreshold then Sensitivity * oni
    else if oni <= -PhaseThreshold then -Sensitivity * Abs(oni)
    else 0.0
  }

  /** The ENSO phase of an ONI value; it is neutral exactly where the impact
      vanishes. */
  function PhaseOf(oni: real): (p: Phase)
    ensures p == ElNino <==> oni >= 0.5
    ensures p == LaNina <==> oni <= -0.5
    ensures p == Neutral <==> Impact(oni) == 0.0
  {
    if oni >= PhaseThreshold then ElNino
    else if oni <= -PhaseThreshold then LaNina
    else Neutral
  }

  /** Stronger warm readings never lower the impact, and it vanishes exactly
      on the neutral band. */
  lemma ImpactMonotone(a: real, b: real)
    requires a <= b
    ensures Impact(a) <= Impact(b)
    ensures Impact(a) == 0.0 <==> -PhaseThreshold < a < PhaseThreshold
  {
  }

  /** The reference points 0.4, 0.6 and 1.0 give impacts 0, 0.048 and 0.08. */
  lemma ImpactReferencePoints()
    ensures Impact(0.4) == 0.0 && Impact(0.6) == 0.048 && Impact(1.0) == 0.08
  {
  }

  /** `get_current_enso_state`: neutral with no impact when there is no
      reading, otherwise the classification of the latest reading. */
  function CurrentEnsoState(readings: seq<Reading>): (s: EnsoState)
    ensures |readings| == 0 ==> s == EnsoState(Neutral, 0.0, None, 0.0)
    ensures |readings| > 0 ==>
      && s.period.Some?
      && Reading(s.period.value, s.oni) in readings
      && forall i :: 0 <= i < |readings| ==> !KeyBefore(s.period.value, readings[i].period)
    ensures s.phase == ElNino <==> s.oni >= 0.5
    ensures s.phase == LaNina <==> s.oni <= -0.5
    ensures s.phase == Neutral <==> s.impact == 0.0
    ensures s.phase != Neutral ==> s.impact == 0.08 * s.oni
  {
    if |readings| == 0 then EnsoState(Neutral, 0.0, None, 0.0)
    else
      var latest := LatestReading(readings);
      EnsoState(PhaseOf(latest.oni), latest.oni, Some(latest.period), Impact(latest.oni))
  }

  // ---------------------------------------------------------------------
  // The season text is not in calendar order ("SON" > "OND" > "NDJ"), so the
  // key above does not pick the chronologically latest season of a year.

  /** Position of a three-month ONI season within its year (DJF = 1 ... NDJ = 12);
      0 for any other text. */
  function SeasonIndex(season: string): (k: nat)
    ensures k <= 12
  {
    if season == "DJF" then 1 else if season == "JFM" then 2 else if season == "FMA" then 3
    else if season == "MAM" then 4 else if season == "AMJ" then 5 else if season == "MJJ" then 6
    else if season == "JJA" then 7 else if season == "JAS" then 8 else if season == "ASO" then 9
    else if season == "SON" then 10 else if season == "OND" then 11 else if season == "NDJ" then 12
    else 0
  }

  /** Within one year, the source's key ranks "SON" above the later "OND". */
  lemma SeasonTextMisordersLateYear()
    ensures LatestReading([Reading(Period("SON", 2025), -0.5), Reading(Period("OND", 2025), -0.6)]).period
         == Period("SON", 2025)
    ensures SeasonIndex("SON") < SeasonIndex("OND")
  {
    assert TextBefore("OND", "SON");
    assert !TextBefore("SON", "OND");
  }

  /** Chronological order of periods: by year, then by season position. */
  predicate ChronologicallyBefore(p: Period, q: Period) {
    p.year < q.year || (p.year == q.year && SeasonIndex(p.season) < SeasonIndex(q.season))
  }

  /** The reading that is latest in calendar order. */
  function LatestReadingChronological(readings: seq<Reading>): (r: Reading)
    requires |readings| > 0
    ensures r in readings
    ensures forall i :: 0 <= i < |readings| ==> !ChronologicallyBefore(r.period, readings[i].period)
  {
    LatestByIsMaximal(readings, ChronologicallyBefore);
    LatestBy(readings, ChronologicallyBefore)
  }

  /** With the season order fixed, a year's later season wins. */
  lemma ChronologicalPicksLaterSeason()
    ensures LatestReadingChronological([Reading(Period("SON", 2025), -0.5), Reading(Period("OND", 2025), -0.6)]).period
         == Period("OND", 2025)
  {
  }

  /** ENSO state from the chronologically latest reading. */
  function CurrentEnsoStateChronological(readings: seq<Reading>): (s: EnsoState)
    ensures |readings| == 0 ==> s == EnsoState(Neutral, 0.0, None, 0.0)
    ensures |readings| > 0 ==>
      && s.period.Some?
      && Reading(s.period.value, s.oni) in readings
      && forall i :: 0 <= i < |readings| ==> !ChronologicallyBefore(s.period.value, readings[i].period)
    ensures s.phase == ElNino <==> s.oni >= 0.5
    ensures s.phase == LaNina <==> s.oni <= -0.5
    ensures s.phase == Neutral <==> s.impact == 0.0
    ensures s.phase != Neutral ==> s.impact == 0.08 * s.oni
  {
    if |readings| == 0 then EnsoState(Neutral, 0.0, None, 0.0)
    else
      var latest := LatestReadingChronological(readings);
      EnsoState(PhaseOf(latest.oni), latest.oni, Some(latest.period), Impact(latest.oni))
  }
}

=== FILE: era5_fetcher.dfy ===
/** The pure parts of the ERA5 fetcher: the 1951-1980 monthly baseline table
    with the kelvin-to-anomaly conversion, and the choice of which days of a
    month to request given the reanalysis lag of five days. The request
    itself, the credential check and the NetCDF averaging are not modelled. */
module Era5Fetcher {
  import opened Common
  import opened Calendar

  /** Global mean surface temperature per calendar month over 1951-1980, in
      kelvin; entry `m - 1` holds month `m`. */
  const Baseline1951To1980: seq<real> :=
    [287.0, 287.2, 287.8, 288.5, 289.1, 289.5, 289.6, 289.4, 289.0, 288.4, 287.7, 287.2]

  /** Baseline used for a month number outside the table. */
  const FallbackBaseline: real := 288.0

  /** Days the reanalysis lags behind the present. */
  const LagDays: nat := 5

  /** The table has one entry per month, every entry is a plausible global
      mean, and January, the first entry, is the coolest. */
  lemma BaselineTableShape()
    ensures |Baseline1951To1980| == 12
    ensures forall i :: 0 <= i < 12 ==> 287.0 <= Baseline1951To1980[i] <= 289.6
    ensures Baseline1951To1980[0] == 287.0
  {
  }

  /** `BASELINE_1951_1980.get(month, 288.0)`: a table value between 287.0
      and 289.6, the lowest for January only; no month's entry equals the
      fallback, so 288.0 comes out exactly for month numbers off the table. */
  function MonthBaseline(month: int): (b: real)
    ensures 287.0 <= b <= 289.6
    ensures b == 287.0 <==> month == 1
    ensures b == FallbackBaseline <==> !(1 <= month <= 12)
  {
    if 1 <= month <= 12 then Baseline1951To1980[month - 1] else FallbackBaseline
  }

  /** Global mean temperature (kelvin) minus the 1951-1980 baseline of `month`,
      or minus 288.0 when `month` is not 1..12. */
  function Era5ToAnomaly(globalMeanK: real, month: int): (a: real)
    ensures 1 <= month <= 12 ==> a + Baseline1951To1980[month - 1] == globalMeanK
    ensures !(1 <= month <= 12) ==> a + FallbackBaseline == globalMeanK
  {
    globalMeanK - MonthBaseline(month)
  }

  /** A warmer global mean always gives a larger anomaly for the same month. */
  lemma AnomalyIncreasing(k1: real, k2: real, month: int)
    requires k1 < k2
    ensures Era5ToAnomaly(k1, month) < Era5ToAnomaly(k2, month)
  {
  }

  /** `list(range(1, n + 1))`. */
  function DayRange(n: int): (r: seq<int>)
    ensures |r| == if n > 0 then n else 0
    ensures forall i :: 0 <= i < |r| ==> r[i] == i + 1
    decreases if n > 0 then n else 0
  {
    if n <= 0 then [] else DayRange(n - 1) + [n]
  }

  /** What the fetcher decides to request for a (year, month). */
  datatype DayRequest =
    | Days(days: seq<int>)
    | NotYetAvailable     // prints "Data not yet available" and returns None
    | MonthOutOfRange     // `calendar.monthrange` raises IllegalMonthError
    | BeforeMinDate       // `today - timedelta(days=5)` raises OverflowError
    | EmptyDayList        // an explicit `[]`: the progress message reads `days[0]` and raises IndexError

  /** The day list of `fetch_era5_daily`, given the reanalysis cutoff date: an
      explicit non-empty list is used as it is and an explicit empty one fails
      before any request; otherwise the cutoff month gives days 1..cutoff.day,
      an earlier month gives all its days, a later month nothing. A request
      that goes ahead never has an empty day list. */
  function SelectDays(year: int, month: int, days: Option<seq<int>>, cutoff: Date): (r: DayRequest)
    requires ValidDate(cutoff)
    ensures days.Some? && |days.value| > 0 ==> r == Days(days.value)
    ensures r == EmptyDayList <==> days == Some([])
    ensures r.Days? ==> |r.days| > 0
    ensures r != BeforeMinDate
    ensures days.None? ==>
      (r == NotYetAvailable <==>
        !(year == cutoff.year && month == cutoff.month) && !MonthBefore(year, month, cutoff.year, cutoff.month))
    ensures days.None? ==>
      (r == MonthOutOfRange <==> MonthBefore(year, month, cutoff.year, cutoff.month) && !(1 <= month <= 12))
    ensures days.None? && year == cutoff.year && month == cutoff.month ==> r.Days? && |r.days| == cutoff.day
    ensures days.None? && MonthBefore(year, month, cutoff.year, cutoff.month) && 1 <= month <= 12 ==>
      r.Days? && |r.days| == MonthLength(year, month)
    ensures days.None? && r.Days? ==>
      forall i :: 0 <= i < |r.days| ==>
        && r.days[i] == i + 1
        && 1 <= month <= 12
        && r.days[i] <= MonthLength(year, month)
        && DateAtMost(Date(year, month, r.days[i]), cutoff)
  {
    match days
    case Some(given) => if |given| == 0 then EmptyDayList else Days(given)
    case None =>
      if year == cutoff.year && month == cutoff.month then Days(DayRange(cutoff.day))
      else if MonthBefore(year, month, cutoff.year, cutoff.month) then
        if 1 <= month <= 12 then Days(DayRange(MonthLength(year, month))) else MonthOutOfRange
      else NotYetAvailable
  }

  /** `fetch_era5_daily`'s choice on the day `today`: the cutoff is five days earlier. */
  function SelectDaysOn(year: int, month: int, days: Option<seq<int>>, today: Date): (r: DayRequest)
    requires ValidDate(today)
    ensures days.Some? ==> r == SelectDays(year, month, days, today)
    ensures r == EmptyDayList <==> days == Some([])
    ensures r == BeforeMinDate <==> days.None? && Ordinal(today) <= LagDays
    ensures days.None? && Ordinal(today) > LagDays ==>
      exists cutoff :: ValidDate(cutoff) && Ordinal(cutoff) == Ordinal(today) - LagDays
                    && r == SelectDays(year, month, None, cutoff)
  {
    match days
    case Some(_) => SelectDays(year, month, days, today)
    case None =>
      match MinusDays(today, LagDays)
      case None => BeforeMinDate
      case Some(cutoff) => SelectDays(year, month, None, cutoff)
  }
}

=== FILE: era5t.dfy ===
/** The ERA5T / Open-Meteo cross-check of January 2026: how many days of
    January each source can cover on a given day, which sources are consulted,
    how each source's global mean is calibrated to a GISS anomaly, how the
    per-source estimates are combined, and where the result ranks among the
    past Januaries. "Today" and the fetched means are inputs. */
module Era5t {
  import opened Common
  import opened Sorting
  import opened Calendar

  /** Which data set an estimate came from. */
  datatype Source = Era5tSource | OpenMeteoSource

  /** A GISS anomaly estimate, tagged with its source. */
  datatype GissEstimate = GissEstimate(anomaly: real, source: Source)

  /** A present estimate with the weight it carries in the combination. */
  datatype Weighted = Weighted(anomaly: real, source: Source, weight: real)

  /** The GISS anomaly both calibrations assign to their baseline mean. */
  const BaselineAnomaly: real := 0.9
  /** ERA5 global January mean (in degrees C) mapped to `BaselineAnomaly`. */
  const Era5tBaseline: real := 12.0
  /** GISS degrees per ERA5 degree. */
  const Era5tSlope: real := 0.8
  /** Open-Meteo sample mean (in degrees C) mapped to `BaselineAnomaly`. */
  const OpenMeteoBaseline: real := 10.0
  /** GISS degrees per Open-Meteo degree. */
  const OpenMeteoSlope: real := 0.1

  /** The year and month under study. */
  const StudyYear: int := 2026
  const StudyMonth: int := 1
  /** Days in January. */
  const JanuaryDays: nat := 31
  /** Days ERA5T lags behind real time. */
  const Era5tLag: nat := 5
  /** Fewest ERA5T days worth a request. */
  const MinEra5tDays: nat := 10
  /** Fewest days worth an Open-Meteo request. */
  const MinOpenMeteoDays: nat := 5
  /** Weights of the two sources in the combination. */
  const Era5tWeight: real := 0.7
  const OpenMeteoWeight: real := 0.3

  // ---------------------------------------------------------------------
  // Calibration

  /** The ERA5T calibration: increasing, 0.9 exactly at 12.0 degrees, and
      undone by `Era5tMeanFor`. */
  function FromEra5t(mean: real): (a: real)
    ensures Era5tMeanFor(a) == mean
    ensures a > 0.9 <==> mean > 12.0
    ensures a == 0.9 <==> mean == 12.0
  {
    BaselineAnomaly + (mean - Era5tBaseline) * Era5tSlope
  }

  /** The Open-Meteo calibration: increasing, 0.9 exactly at 10.0 degrees,
      and undone by `OpenMeteoMeanFor`. */
  function FromOpenMeteo(mean: real): (a: real)
    ensures OpenMeteoMeanFor(a) == mean
    ensures a > 0.9 <==> mean > 10.0
    ensures a == 0.9 <==> mean == 10.0
  {
    BaselineAnomaly + (mean - OpenMeteoBaseline) * OpenMeteoSlope
  }

  /** The ERA5T mean that calibrates to `anomaly`. */
  function Era5tMeanFor(anomaly: real): real {
    Era5tBaseline + (anomaly - BaselineAnomaly) / Era5tSlope
  }

  /** The Open-Meteo mean that calibrates to `anomaly`. */
  function OpenMeteoMeanFor(anomaly: real): real {
    OpenMeteoBaseline + (anomaly - BaselineAnomaly) / OpenMeteoSlope
  }

  /** `estimate_giss_anomaly`: an ERA5T mean takes precedence and is scaled
      by 0.8 around 12.0 degrees; otherwise an Open-Meteo mean is scaled by
      0.1 around 10.0 degrees; with neither there is no estimate. */
  function EstimateGiss(era5tMean: Option<real>, openMeteoMean: Option<real>): (r: Option<GissEstimate>)
    ensures r.None? <==> era5tMean.None? && openMeteoMean.None?
    ensures era5tMean.Some? ==>
      r.value.source == Era5tSource && r.value.anomaly - 0.9 == 0.8 * (era5tMean.value - 12.0)
    ensures era5tMean.None? && openMeteoMean.Some? ==>
      r.value.source == OpenMeteoSource && r.value.anomaly - 0.9 == 0.1 * (openMeteoMean.value - 10.0)
  {
    match era5tMean
    case Some(m) => Some(GissEstimate(FromEra5t(m), Era5tSource))
    case None =>
      match openMeteoMean
      case Some(m) => Some(GissEstimate(FromOpenMeteo(m), OpenMeteoSource))
      case None => None
  }

  /** Both calibrations give 0.9 at their baseline, are strictly increasing,
      and are undone by the matching inverse: the estimate determines the
      mean it came from. */
  lemma CalibrationsAnchoredAndInvertible(x: real, y: real)
    ensures FromEra5t(12.0) == 0.9 && FromOpenMeteo(10.0) == 0.9
    ensures x < y ==> FromEra5t(x) < FromEra5t(y) && FromOpenMeteo(x) < FromOpenMeteo(y)
    ensures Era5tMeanFor(FromEra5t(x)) == x && FromEra5t(Era5tMeanFor(x)) == x
    ensures OpenMeteoMeanFor(FromOpenMeteo(x)) == x && FromOpenMeteo(OpenMeteoMeanFor(x)) == x
  {
  }

  // ---------------------------------------------------------------------
  // Days available

  /** Days of January 2026 with data on `today`: up to yesterday during the
      month, the whole month after it, none before it. */
  function DaysAvailable(today: Date): (n: nat)
    requires ValidDate(today)
    ensures today.year == 2026 && today.month == 1 ==> n + 1 == today.day
    ensures MonthBefore(2026, 1, today.year, today.month) ==> n == 31
    ensures MonthBefore(today.year, today.month, 2026, 1) ==> n == 0
  {
    if today.year == StudyYear && today.month == StudyMonth then today.day - 1
    else if today.year > StudyYear || (today.year == StudyYear && today.month > StudyMonth) then JanuaryDays
    else 0
  }

  /** `max(0, days_available - 5)`: ERA5T trails by five days. */
  function Era5tDays(daysAvailable: nat): (n: nat)
    ensures n <= daysAvailable
    ensures daysAvailable >= 5 ==> n + 5 == daysAvailable
    ensures daysAvailable < 5 ==> n == 0
  {
    if daysAvailable >= Era5tLag then daysAvailable - Era5tLag else 0
  }

  /** Whether ERA5T is requested. */
  predicate Era5tRuns(daysAvailable: nat) {
    Era5tDays(daysAvailable) >= MinEra5tDays
  }

  /** Whether Open-Meteo is requested. */
  predicate OpenMeteoRuns(daysAvailable: nat) {
    daysAvailable >= MinOpenMeteoDays
  }

  /** Days available never exceed January's 31 and never decrease as time
      goes on; during January they stay below today's day of the month. */
  lemma {:induction false} DaysAvailableMonotone(a: Date, b: Date)
    requires ValidDate(a) && ValidDate(b)
    requires DateAtMost(a, b)
    ensures DaysAvailable(a) <= DaysAvailable(b) <= 31
    ensures a.year == 2026 && a.month == 1 ==> DaysAvailable(a) < a.day
  {
    if b.year == 2026 && b.month == 1 {
      assert b.day <= MonthLength(2026, 1);
    }
  }

  /** ERA5T is requested from 15 days on, and whenever it is, Open-Meteo is
      requested too. */
  lemma GatesNest(daysAvailable: nat)
    ensures Era5tRuns(daysAvailable) <==> daysAvailable >= 15
    ensures Era5tRuns(daysAvailable) ==> OpenMeteoRuns(daysAvailable)
  {
  }

  // ---------------------------------------------------------------------
  // Combination

  /** The estimates that enter the combination, ERA5T first. A source enters
      only when its gate is open, its mean came back and was truthy (for
      Open-Meteo), and its calibrated estimate is not `0.0` (Python
      truthiness). */
  function Estimates(daysAvailable: nat, era5tMean: Option<real>, openMeteoMean: Option<real>): (es: seq<Weighted>)
    ensures |es| <= 2
    ensures forall i :: 0 <= i < |es| ==> es[i].anomaly != 0.0 && es[i].weight > 0.0
    ensures (exists i :: 0 <= i < |es| && es[i].source == Era5tSource)
        <==> Era5tRuns(daysAvailable) && era5tMean.Some? && FromEra5t(era5tMean.value) != 0.0
    ensures (exists i :: 0 <= i < |es| && es[i].source == OpenMeteoSource)
        <==> OpenMeteoRuns(daysAvailable) && IsNonZero(openMeteoMean) && FromOpenMeteo(openMeteoMean.value) != 0.0
    ensures forall i :: 0 <= i < |es| && es[i].source == Era5tSource ==>
      es[i] == Weighted(FromEra5t(era5tMean.value), Era5tSource, 0.7) && i == 0
    ensures forall i :: 0 <= i < |es| && es[i].source == OpenMeteoSource ==>
      es[i] == Weighted(FromOpenMeteo(openMeteoMean.value), OpenMeteoSource, 0.3)
  {
    var fromEra5t :=
      if Era5tRuns(daysAvailable) && era5tMean.Some? then
        Weigh(EstimateGiss(era5tMean, None).value, Era5tWeight)
      else [];
    var fromOpenMeteo :=
      if OpenMeteoRuns(daysAvailable) && IsNonZero(openMeteoMean) then
        Weigh(EstimateGiss(None, openMeteoMean).value, OpenMeteoWeight)
      else [];
    assert era5tMean.Some? ==> EstimateGiss(era5tMean, None).value.anomaly == FromEra5t(era5tMean.value);
    assert openMeteoMean.Some? ==> EstimateGiss(None, openMeteoMean).value.anomaly == FromOpenMeteo(openMeteoMean.value);
    assert forall i :: 0 <= i < |fromOpenMeteo| ==> (fromEra5t + fromOpenMeteo)[|fromEra5t| + i] == fromOpenMeteo[i];
    assert |fromEra5t| == 1 ==> (fromEra5t + fromOpenMeteo)[0] == fromEra5t[0];
    fromEra5t + fromOpenMeteo
  }

  /** `if est: estimates.append((est, src, weight))`: a `0.0` estimate is
      dropped. */
  function Weigh(e: GissEstimate, weight: real): (r: seq<Weighted>)
    ensures |r| == 1 <==> e.anomaly != 0.0
    ensures |r| <= 1
    ensures |r| == 1 ==> r[0] == Weighted(e.anomaly, e.source, weight)
  {
    if e.anomaly != 0.0 then [Weighted(e.anomaly, e.source, weight)] else []
  }

  /** Python truthiness of an optional mean. */
  predicate IsNonZero(m: Option<real>) {
    m.Some? && m.value != 0.0
  }

  function TotalWeight(es: seq<Weighted>): real {
    if |es| == 0 then 0.0 else es[0].weight + TotalWeight(es[1..])
  }

  function WeightedSum(es: seq<Weighted>): real {
    if |es| == 0 then 0.0 else es[0].anomaly * es[0].weight + WeightedSum(es[1..])
  }

  /** The final estimate: the weighted mean of the estimates, or `None` when
      there are none. */
  function FinalEstimate(es: seq<Weighted>): (r: Option<real>)
    requires forall i :: 0 <= i < |es| ==> es[i].weight > 0.0
    ensures r.None? <==> |es| == 0
    ensures r.Some? ==> r.value * TotalWeight(es) == WeightedSum(es)
  {
    if |es| == 0 then None
    else
      WeightsPositive(es);
      Some(WeightedSum(es) / TotalWeight(es))
  }

  lemma {:induction false} WeightsPositive(es: seq<Weighted>)
    requires |es| > 0
    requires forall i :: 0 <= i < |es| ==> es[i].weight > 0.0
    ensures TotalWeight(es) > 0.0
  {
    if |es| > 1 {
      WeightsPositive(es[1..]);
    }
  }

  lemma {:induction false} WeightedSumBounds(es: seq<Weighted>, lo: real, hi: real)
    requires forall i :: 0 <= i < |es| ==> es[i].weight > 0.0 && lo <= es[i].anomaly <= hi
    ensures lo * TotalWeight(es) <= WeightedSum(es) <= hi * TotalWeight(es)
  {
    if |es| > 0 {
      assert forall i :: 0 <= i < |es[1..]| ==> es[1..][i] == es[i + 1];
      WeightedSumBounds(es[1..], lo, hi);
      var a, w, t, rest := es[0].anomaly, es[0].weight, TotalWeight(es[1..]), WeightedSum(es[1..]);
      AddBounds(lo, hi, a, w, t, rest);
      assert TotalWeight(es) == w + t;
      assert WeightedSum(es) == a * w + rest;
    }
  }

  /** One more weighted term keeps the running sum within the bounds. */
  lemma AddBounds(lo: real, hi: real, a: real, w: real, t: real, rest: real)
    requires w > 0.0 && lo <= a <= hi && lo * t <= rest <= hi * t
    ensures lo * (w + t) <= a * w + rest <= hi * (w + t)
  {
    ScaleByWeight(lo, a, w);
    ScaleByWeight(a, hi, w);
    Distribute(lo, w, t);
    Distribute(hi, w, t);
  }

  lemma ScaleByWeight(x: real, y: real, w: real)
    requires x <= y && w > 0.0
    ensures x * w <= y * w
  {
  }

  lemma Distribute(x: real, w: real, t: real)
    ensures x * (w + t) == x * w + x * t
  {
  }

  lemma QuotientBounds(s: real, w: real, lo: real, hi: real)
    requires w > 0.0 && lo * w <= s <= hi * w
    ensures lo <= s / w <= hi
  {
    assert (lo * w) / w == lo && (hi * w) / w == hi;
  }

  /** The combined estimate lies within any band holding every estimate, in
      particular between the smallest and the largest of them. */
  lemma FinalWithinEstimates(es: seq<Weighted>, lo: real, hi: real)
    requires forall i :: 0 <= i < |es| ==> es[i].weight > 0.0 && lo <= es[i].anomaly <= hi
    ensures FinalEstimate(es).Some? ==> lo <= FinalEstimate(es).value <= hi
  {
    if |es| > 0 {
      WeightsPositive(es);
      WeightedSumBounds(es, lo, hi);
      QuotientBounds(WeightedSum(es), TotalWeight(es), lo, hi);
    }
  }

  /** With both sources present the weights add up to 1 and the result is
      0.7 of the ERA5T estimate plus 0.3 of the Open-Meteo one; with one
      source the result is that source's estimate. */
  lemma FinalOfOneOrTwo(a: real, b: real)
    ensures FinalEstimate([Weighted(a, Era5tSource, 0.7), Weighted(b, OpenMeteoSource, 0.3)]) == Some(0.7 * a + 0.3 * b)
    ensures FinalEstimate([Weighted(a, Era5tSource, 0.7)]) == Some(a)
    ensures FinalEstimate([Weighted(b, OpenMeteoSource, 0.3)]) == Some(b)
  {
    var e, o := Weighted(a, Era5tSource, 0.7), Weighted(b, OpenMeteoSource, 0.3);
    OneEstimate(e);
    OneEstimate(o);
    var two := [e, o];
    assert two[1..] == [o];
    assert TotalWeight(two) == 0.7 + 0.3;
    assert WeightedSum(two) == a * 0.7 + b * 0.3;
  }

  lemma OneEstimate(e: Weighted)
    ensures TotalWeight([e]) == e.weight && WeightedSum([e]) == e.anomaly * e.weight
  {
    assert [e][1..] == [];
  }

  // ---------------------------------------------------------------------
  // Ranking

  /** Past GISS January anomalies, 2016 to 2025 in that order. */
  const GissJanuary: seq<real> := [1.17, 1.02, 0.82, 0.93, 1.17, 0.82, 0.93, 0.91, 1.30, 1.38]

  /** `sorted(history + [x], reverse=True).index(x) + 1`: one more than the
      number of past values strictly warmer than `x`, so a tie shares the
      better place; rank 1 exactly when no past value is warmer. */
  function RankOf(history: seq<real>, x: real): (r: nat)
    ensures r == 1 + CountWhere(history, Above(x))
    ensures 1 <= r <= |history| + 1
    ensures r == 1 <==> forall i :: 0 <= i < |history| ==> history[i] <= x
  {
    var all := history + [x];
    var sorted := SortDesc(all, Identity);
    assert x in multiset(all) by {
      assert all[|history|] == x;
    }
    assert x in sorted by {
      assert x in multiset(sorted);
    }
    IndexOfSortedDesc(sorted, x);
    CountWherePermutation(sorted, all, Above(x));
    CountWhereAppend(history, [x], Above(x));
    assert CountWhere([x], Above(x)) == 0;
    WarmerCountIsZeroExactly(history, x);
    IndexOf(sorted, x) + 1
  }

  lemma WarmerCountIsZeroExactly(history: seq<real>, x: real)
    ensures CountWhere(history, Above(x)) == 0 <==> forall i :: 0 <= i < |history| ==> history[i] <= x
  {
    if forall i :: 0 <= i < |history| ==> history[i] <= x {
      CountAboveNone(history, x);
    } else {
      var i :| 0 <= i < |history| && history[i] > x;
      CountWherePositive(history, Above(x), i);
    }
  }

  /** A history whose warmest value is `top`, reached at some index. */
  predicate RecordIs(history: seq<real>, top: real) {
    (exists k :: 0 <= k < |history| && history[k] == top)
    && forall i :: 0 <= i < |history| ==> history[i] <= top
  }

  /** Rank 1 is reached exactly from the record up. */
  lemma RankOneFromRecord(history: seq<real>, top: real, x: real)
    requires RecordIs(history, top)
    ensures RankOf(history, x) == 1 <==> x >= top
  {
    var k :| 0 <= k < |history| && history[k] == top;
  }

  /** The ten past Januaries, with the 2025 record 1.38 as the warmest. */
  lemma SourceHistoryShape()
    ensures |GissJanuary| == 10
    ensures RecordIs(GissJanuary, 1.38)
  {
    assert GissJanuary[9] == 1.38;
  }

  /** Against the ten past Januaries the rank lies in 1..11, and it is 1
      exactly from 1.38 (the 2025 record) up. */
  lemma SourceHistoryRanks(x: real)
    ensures 1 <= RankOf(GissJanuary, x) <= 11
    ensures RankOf(GissJanuary, x) == 1 <==> x >= 1.38
  {
    SourceHistoryShape();
    RankOneFromRecord(GissJanuary, 1.38, x);
  }

  // ---------------------------------------------------------------------
  // The analysis

  /** What the cross-check reports. */
  datatype Report = Report(
    daysAvailable: nat, era5tDays: nat, estimates: seq<Weighted>,
    final: Option<real>, rank: Option<nat>)

  /** The whole cross-check for `today`, with `era5tMean` the ERA5T global
      mean if its request succeeded and `openMeteoMean` the sample's mean
      (`None` when no point answered); `history` holds the past Januaries.
      A mean is only used when its gate was open. */
  function CrossCheck(today: Date, era5tMean: Option<real>, openMeteoMean: Option<real>, history: seq<real>): (r: Report)
    requires ValidDate(today)
    ensures r.daysAvailable == DaysAvailable(today) && r.era5tDays == Era5tDays(r.daysAvailable)
    ensures r.estimates == Estimates(r.daysAvailable, era5tMean, openMeteoMean)
    ensures r.final == FinalEstimate(r.estimates)
    ensures r.final.None? ==> r.rank.None?
    ensures r.final.Some? ==> r.rank == Some(1 + CountWhere(history, Above(r.final.value)))
    ensures DaysAvailable(today) < 5 ==> r.final.None?
  {
    var days := DaysAvailable(today);
    var es := Estimates(days, era5tMean, openMeteoMean);
    var final := FinalEstimate(es);
    Report(days, Era5tDays(days), es, final,
           if final.Some? then Some(RankOf(history, final.value)) else None)
  }
}

=== FILE: january.dfy ===
/** The January 2026 analysis: the six temperature brackets of the first
    market, the rank of a January anomaly among the GISS Januaries of
    1996-2025 for the second market, the simulation that turns an estimate
    into outcome probabilities, the per-outcome edge with its Kelly fraction,
    and the Open-Meteo based estimate with its fallback. */
module January {
  import opened Common
  import opened Sorting
  import opened Tallies

  // ---------------------------------------------------------------------
  // Market 1: temperature brackets

  datatype Bracket = Below100 | From100To104 | From105To109 | From110To114 | From115To119 | Above119

  /** The brackets in the order the classifier tries them. */
  const TempBrackets: seq<Bracket> := [Below100, From100To104, From105To109, From110To114, From115To119, Above119]

  /** The test of each bracket, on an anomaly in degrees. */
  predicate InBracket(b: Bracket, x: real) {
    match b
    case Below100 => x < 1.00
    case From100To104 => 1.00 <= x < 1.05
    case From105To109 => 1.05 <= x < 1.10
    case From110To114 => 1.10 <= x < 1.15
    case From115To119 => 1.15 <= x < 1.20
    case Above119 => x >= 1.20
  }

  /** Position of a bracket in `TempBrackets`, from cold to warm. */
  function BracketIndex(b: Bracket): (i: nat)
    ensures i < |TempBrackets| && TempBrackets[i] == b
  {
    match b
    case Below100 => 0
    case From100To104 => 1
    case From105To109 => 2
    case From110To114 => 3
    case From115To119 => 4
    case Above119 => 5
  }

  function Holds(x: real): Bracket -> bool {
    (b: Bracket) => InBracket(b, x)
  }

  /** The scan of the classifier finds a bracket for every anomaly, so its
      closing fallback is never reached. */
  lemma BracketScanAlwaysMatches(x: real)
    ensures FirstIndex(TempBrackets, Holds(x)).Some?
  {
    if x < 1.00 {
      assert Holds(x)(TempBrackets[0]);
    } else if x < 1.05 {
      assert Holds(x)(TempBrackets[1]);
    } else if x < 1.10 {
      assert Holds(x)(TempBrackets[2]);
    } else if x < 1.15 {
      assert Holds(x)(TempBrackets[3]);
    } else if x < 1.20 {
      assert Holds(x)(TempBrackets[4]);
    } else {
      assert Holds(x)(TempBrackets[5]);
    }
  }

  /** `get_temp_bracket`: the first bracket whose test holds, with the last
      bracket as fallback. The brackets partition the reals: the result is
      the one bracket containing `x`. */
  function TempBracket(x: real): (b: Bracket)
    ensures InBracket(b, x)
    ensures forall c: Bracket :: InBracket(c, x) ==> c == b
  {
    BracketScanAlwaysMatches(x);
    var i := FirstIndex(TempBrackets, Holds(x));
    if i.Some? then TempBrackets[i.value] else Above119
  }

  /** A warmer anomaly never lands in a colder bracket. */
  lemma BracketMonotone(x: real, y: real)
    requires x <= y
    ensures BracketIndex(TempBracket(x)) <= BracketIndex(TempBracket(y))
  {
  }

  // ---------------------------------------------------------------------
  // Market 2: rank among past Januaries

  datatype HistEntry = HistEntry(year: nat, anomaly: real)

  /** GISS January anomalies (degrees against 1951-1980), newest first as in
      the source table. */
  const GissJanuaryHistorical: seq<HistEntry> := [
    HistEntry(2025, 1.38), HistEntry(2024, 1.25), HistEntry(2023, 0.88), HistEntry(2022, 0.91),
    HistEntry(2021, 0.81), HistEntry(2020, 1.18), HistEntry(2019, 0.93), HistEntry(2018, 0.82),
    HistEntry(2017, 1.02), HistEntry(2016, 1.18), HistEntry(2015, 0.87), HistEntry(2014, 0.77),
    HistEntry(2013, 0.71), HistEntry(2012, 0.47), HistEntry(2011, 0.52), HistEntry(2010, 0.75),
    HistEntry(2009, 0.65), HistEntry(2008, 0.30), HistEntry(2007, 1.02), HistEntry(2006, 0.56),
    HistEntry(2005, 0.75), HistEntry(2004, 0.58), HistEntry(2003, 0.74), HistEntry(2002, 0.77),
    HistEntry(2001, 0.45), HistEntry(2000, 0.25), HistEntry(1999, 0.48), HistEntry(1998, 0.58),
    HistEntry(1997, 0.32), HistEntry(1996, 0.24)]

  datatype JanuaryRank = FirstHottest | SecondHottest | ThirdHottest | FourthOrLower

  /** The outcome named for a 1-based rank. */
  function RankLabel(rank: nat): (r: JanuaryRank)
    ensures r == FirstHottest <==> rank <= 1
    ensures r == SecondHottest <==> rank == 2
    ensures r == ThirdHottest <==> rank == 3
  {
    if rank <= 1 then FirstHottest
    else if rank == 2 then SecondHottest
    else if rank == 3 then ThirdHottest
    else FourthOrLower
  }

  /** Position of an outcome in the ranking market's table. */
  function RankIndex(r: JanuaryRank): (i: nat)
    ensures i < 4
  {
    match r
    case FirstHottest => 0
    case SecondHottest => 1
    case ThirdHottest => 2
    case FourthOrLower => 3
  }

  function Anomaly(e: HistEntry): real {
    e.anomaly
  }

  /** The predicate "this past January was at least as warm as `a`". */
  function AtLeast(a: real): HistEntry -> bool {
    (e: HistEntry) => e.anomaly >= a
  }

  /** The `enumerate(sorted_years, 1)` loop: the first past January that `a`
      strictly beats decides the rank; beating none gives "4th or lower". */
  function ScanFrom(sorted: seq<HistEntry>, a: real, rank: nat): JanuaryRank
    decreases |sorted|
  {
    if |sorted| == 0 then FourthOrLower
    else if a > sorted[0].anomaly then RankLabel(rank)
    else ScanFrom(sorted[1..], a, rank + 1)
  }

  /** On any list, sorted or not, the scan answers with the label of the
      first entry `a` beats, counted from `rank`, and "4th or lower" when it
      beats none. */
  lemma {:induction false} ScanFromFirstBeaten(sorted: seq<HistEntry>, a: real, rank: nat)
    ensures (forall i :: 0 <= i < |sorted| ==> a <= sorted[i].anomaly) ==> ScanFrom(sorted, a, rank) == FourthOrLower
    ensures forall i ::
      (0 <= i < |sorted| && a > sorted[i].anomaly && forall j :: 0 <= j < i ==> a <= sorted[j].anomaly) ==>
        ScanFrom(sorted, a, rank) == RankLabel(rank + i)
    decreases |sorted|
  {
    if |sorted| > 0 && a <= sorted[0].anomaly {
      ScanFromFirstBeaten(sorted[1..], a, rank + 1);
      assert forall i :: 1 <= i < |sorted| ==> sorted[i] == sorted[1..][i - 1];
    }
  }

  /** On a list sorted warmest first, the scan stops after exactly the
      entries at least as warm as `a`. */
  lemma {:induction false} ScanCountsWarmer(sorted: seq<HistEntry>, a: real, rank: nat)
    requires SortedDesc(sorted, Anomaly)
    ensures CountWhere(sorted, AtLeast(a)) == |sorted| ==> ScanFrom(sorted, a, rank) == FourthOrLower
    ensures CountWhere(sorted, AtLeast(a)) < |sorted| ==>
      ScanFrom(sorted, a, rank) == RankLabel(rank + CountWhere(sorted, AtLeast(a)))
  {
    if |sorted| > 0 {
      if a > sorted[0].anomaly {
        forall i | 0 <= i < |sorted|
          ensures !AtLeast(a)(sorted[i])
        {
          assert Anomaly(sorted[0]) >= Anomaly(sorted[i]) || i == 0;
        }
        CountWhereNone(sorted, AtLeast(a));
      } else {
        assert SortedDesc(sorted[1..], Anomaly) by {
          forall i, j | 0 <= i < j < |sorted[1..]|
            ensures Anomaly(sorted[1..][i]) >= Anomaly(sorted[1..][j])
          {
            assert sorted[1..][i] == sorted[i + 1] && sorted[1..][j] == sorted[j + 1];
          }
        }
        ScanCountsWarmer(sorted[1..], a, rank + 1);
      }
    }
  }

  /** The facts about the GISS table the ranking depends on: its two
      warmest entries are 1.38 and 1.25, and every other one is at most 1.18,
      a value that occurs at index 5. */
  predicate GissShaped(table: seq<HistEntry>) {
    && |table| >= 6
    && table[0].anomaly == 1.38 && table[1].anomaly == 1.25 && table[5].anomaly == 1.18
    && forall i :: 2 <= i < |table| ==> table[i].anomaly <= 1.18
  }

  /** How many entries are at least as warm as `a` in a table shaped like
      the GISS one: none above 1.38, one up to 1.38, two up to 1.25, and at
      least three (1.38, 1.25 and 1.18) from 1.18 down. */
  lemma {:induction false} WarmerCountOfShape(table: seq<HistEntry>, a: real)
    requires GissShaped(table)
    ensures a > 1.38 ==> CountWhere(table, AtLeast(a)) == 0
    ensures 1.25 < a <= 1.38 ==> CountWhere(table, AtLeast(a)) == 1
    ensures 1.18 < a <= 1.25 ==> CountWhere(table, AtLeast(a)) == 2
    ensures a <= 1.18 ==> CountWhere(table, AtLeast(a)) >= 3
  {
    var rest := table[2..];
    assert CountWhere(table, AtLeast(a))
        == (if a <= 1.38 then 1 else 0) + (if a <= 1.25 then 1 else 0) + CountWhere(rest, AtLeast(a)) by {
      assert table[1..][1..] == rest;
    }
    if a > 1.18 {
      forall i | 0 <= i < |rest|
        ensures !AtLeast(a)(rest[i])
      {
        assert rest[i] == table[i + 2];
      }
      CountWhereNone(rest, AtLeast(a));
    } else {
      assert rest[3] == table[5];
      CountWherePositive(rest, AtLeast(a), 3);
    }
  }

  /** `get_january_ranking` over the table of past Januaries: the table is
      sorted warmest first (stably, as `sorted(..., reverse=True)`) and
      scanned. The rank is one more than the number of past Januaries at
      least as warm as `a`, and "4th or lower" from 4 on or when `a` beats
      none: equalling a past January does not beat it. */
  function JanuaryRanking(table: seq<HistEntry>, a: real): (r: JanuaryRank)
    ensures CountWhere(table, AtLeast(a)) < |table| ==> r == RankLabel(1 + CountWhere(table, AtLeast(a)))
    ensures CountWhere(table, AtLeast(a)) == |table| ==> r == FourthOrLower
  {
    var sorted := SortDesc(table, Anomaly);
    assert |sorted| == |multiset(sorted)| == |multiset(table)| == |table|;
    ScanCountsWarmer(sorted, a, 1);
    CountWherePermutation(sorted, table, AtLeast(a));
    ScanFrom(sorted, a, 1)
  }

  /** On a table shaped like the GISS one the rank is "1st hottest" exactly
      above 1.38, "2nd" in (1.25, 1.38], "3rd" in (1.18, 1.25], and "4th or
      lower" otherwise. */
  lemma RankingOfShape(table: seq<HistEntry>, a: real)
    requires GissShaped(table)
    ensures JanuaryRanking(table, a) == FirstHottest <==> a > 1.38
    ensures JanuaryRanking(table, a) == SecondHottest <==> 1.25 < a <= 1.38
    ensures JanuaryRanking(table, a) == ThirdHottest <==> 1.18 < a <= 1.25
    ensures JanuaryRanking(table, a) == FourthOrLower <==> a <= 1.18
  {
    WarmerCountOfShape(table, a);
  }

  /** The GISS table has 30 Januaries; its two warmest are 2025 (1.38) and
      2024 (1.25), and every other one is at most 1.18, the value of 2020. */
  lemma HistoricalTableShape()
    ensures |GissJanuaryHistorical| == 30
    ensures GissJanuaryHistorical[0] == HistEntry(2025, 1.38) && GissJanuaryHistorical[1] == HistEntry(2024, 1.25)
    ensures GissJanuaryHistorical[5] == HistEntry(2020, 1.18)
    ensures GissShaped(GissJanuaryHistorical)
  {
  }

  /** The bands of the ranking over the source's own table. */
  lemma HistoricalRankBands(a: real)
    ensures JanuaryRanking(GissJanuaryHistorical, a) == FirstHottest <==> a > 1.38
    ensures JanuaryRanking(GissJanuaryHistorical, a) == SecondHottest <==> 1.25 < a <= 1.38
    ensures JanuaryRanking(GissJanuaryHistorical, a) == ThirdHottest <==> 1.18 < a <= 1.25
    ensures JanuaryRanking(GissJanuaryHistorical, a) == FourthOrLower <==> a <= 1.18
  {
    HistoricalTableShape();
    RankingOfShape(GissJanuaryHistorical, a);
  }

  // ---------------------------------------------------------------------
  // Edges and actions

  datatype EdgeInfo = EdgeInfo(edge: real, edgePct: real, direction: Direction, kellyFraction: real)

  /** Largest share of the bankroll a bet may take. */
  const KellyCap: real := 0.25
  /** Edge below which the analysis says "BUY NO". */
  const SellEdge: real := -0.05
  /** |edge| below which the analysis overrides the direction with PASS. */
  const PassBand: real := 0.03

  /** The simplified Kelly fraction `edge / (1 - market)` of a positive edge. */
  function KellyRatio(edge: real, marketProb: real): (k: real)
    requires edge > 0.0 && marketProb < 1.0
    ensures k > 0.0 && k * (1.0 - marketProb) == edge
  {
    var room := 1.0 - marketProb;
    assert (edge / room) * room == edge;
    edge / room
  }

  /** `calculate_edge`. */
  function CalculateEdge(ourProb: real, marketProb: real): (e: EdgeInfo)
    ensures e.edge + marketProb == ourProb
    ensures e.edgePct == 100.0 * e.edge
    ensures e.direction == BuyYes <==> e.edge > 0.0
    ensures e.direction == BuyNo <==> e.edge < -0.05
    ensures e.direction == Pass <==> -0.05 <= e.edge <= 0.0
    ensures 0.0 <= e.kellyFraction <= 0.25
    ensures e.edge <= 0.0 || marketProb >= 1.0 ==> e.kellyFraction == 0.0
    ensures e.edge > 0.0 && marketProb < 1.0 ==>
      e.kellyFraction == Min(KellyRatio(e.edge, marketProb), 0.25)
  {
    var edge := ourProb - marketProb;
    var kelly := if edge > 0.0 then (if marketProb < 1.0 then KellyRatio(edge, marketProb) else 0.0) else 0.0;
    EdgeInfo(edge, edge * 100.0,
             if edge > 0.0 then BuyYes else if edge < SellEdge then BuyNo else Pass,
             Min(kelly, KellyCap))
  }

  /** The action printed for an outcome: the direction, forced to PASS when
      |edge| is under 0.03. */
  function Action(e: EdgeInfo): (a: Direction)
    ensures Abs(e.edge) < 0.03 ==> a == Pass
    ensures Abs(e.edge) >= 0.03 ==> a == e.direction
  {
    if Abs(e.edge) < PassBand then Pass else e.direction
  }

  /** Combined with the direction rule, the action buys "yes" exactly from an
      edge of 0.03 up, buys "no" exactly below -0.05, and passes in between. */
  lemma ActionBands(ourProb: real, marketProb: real)
    ensures var a := Action(CalculateEdge(ourProb, marketProb));
            var edge := ourProb - marketProb;
            && (a == BuyYes <==> edge >= 0.03)
            && (a == BuyNo <==> edge < -0.05)
            && (a == Pass <==> -0.05 <= edge < 0.03)
  {
  }

  // ---------------------------------------------------------------------
  // Simulation

  /** An anomaly estimate with its one-sigma uncertainty. */
  datatype Estimate = Estimate(anomaly: real, uncertainty: real)

  /** Simulated Januaries per analysis. */
  const JanuarySims: nat := 10000

  /** `random.gauss(estimated, uncertainty)` for the standard normal draw `z`. */
  function SimAnomaly(est: Estimate, z: real): real {
    est.anomaly + est.uncertainty * z
  }

  /** The bracket counter a draw increments. */
  function BracketCounter(est: Estimate): real -> nat {
    (z: real) => BracketIndex(TempBracket(SimAnomaly(est, z)))
  }

  /** The ranking counter a draw increments. */
  function RankCounter(table: seq<HistEntry>, est: Estimate): real -> nat {
    (z: real) => RankIndex(JanuaryRanking(table, SimAnomaly(est, z)))
  }

  datatype SimResult = SimResult(tempProbs: seq<real>, rankProbs: seq<real>)

  /** The simulation of `run_analysis`: every draw adds one to exactly one
      bracket counter and one ranking counter; entry `c` of each result is
      the share of draws in outcome `c` (in table order), and each table
      adds up to 1. */
  function Simulate(table: seq<HistEntry>, est: Estimate, zs: seq<real>): (r: SimResult)
    requires |zs| == JanuarySims
    ensures |r.tempProbs| == 6 && |r.rankProbs| == 4
    ensures Sum(r.tempProbs) == 1.0 && Sum(r.rankProbs) == 1.0
    ensures forall c :: 0 <= c < 6 ==>
      0.0 <= r.tempProbs[c] <= 1.0
      && r.tempProbs[c] == CountWhere(zs, IsClass(BracketCounter(est), c)) as real / JanuarySims as real
    ensures forall c :: 0 <= c < 4 ==>
      0.0 <= r.rankProbs[c] <= 1.0
      && r.rankProbs[c] == CountWhere(zs, IsClass(RankCounter(table, est), c)) as real / JanuarySims as real
  {
    assert forall i :: 0 <= i < |zs| ==> BracketCounter(est)(zs[i]) < 6;
    assert forall i :: 0 <= i < |zs| ==> RankCounter(table, est)(zs[i]) < 4;
    var temps := Tally(zs, BracketCounter(est), 6);
    var ranks := Tally(zs, RankCounter(table, est), 4);
    SimResult(Shares(temps, |zs|), Shares(ranks, |zs|))
  }

  /** With no spread, every simulated January equals the estimate, so the
      estimate's own bracket gets probability 1. */
  lemma CertainEstimate(table: seq<HistEntry>, anomaly: real, zs: seq<real>)
    requires |zs| == JanuarySims
    ensures Simulate(table, Estimate(anomaly, 0.0), zs).tempProbs[BracketIndex(TempBracket(anomaly))] == 1.0
  {
    var est := Estimate(anomaly, 0.0);
    var c := BracketIndex(TempBracket(anomaly));
    forall i | 0 <= i < |zs|
      ensures IsClass(BracketCounter(est), c)(zs[i])
    {
      assert SimAnomaly(est, zs[i]) == anomaly;
    }
    CountWhereAll(zs, IsClass(BracketCounter(est), c));
  }

  // ---------------------------------------------------------------------
  // Estimate from Open-Meteo samples

  /** Uncertainty attached to the Open-Meteo estimate. */
  const OpenMeteoUncertainty: real := 0.30
  /** Estimate used when the Open-Meteo one is unavailable. */
  const FallbackEstimate: Estimate := Estimate(1.05, 0.40)

  /** GISS January 2025, the anchor of the estimate. */
  function January2025(): (a: real)
    ensures a == 1.38
  {
    GissJanuaryHistorical[0].anomaly
  }

  /** All readings gathered over the sample points, point by point and in
      order; a point whose request failed contributes an empty list. */
  function SampleReadings(points: seq<seq<Option<real>>>): (r: seq<real>)
    ensures |r| == 0 <==> forall i :: 0 <= i < |points| ==> |Present(points[i])| == 0
    ensures forall x :: x in r <==> exists i :: 0 <= i < |points| && Some(x) in points[i]
  {
    if |points| == 0 then []
    else
      var rest := SampleReadings(points[1..]);
      assert forall i :: 1 <= i < |points| ==> points[i] == points[1..][i - 1];
      assert forall x :: (exists i :: 1 <= i < |points| && Some(x) in points[i]) ==>
        exists i :: 0 <= i < |points[1..]| && Some(x) in points[1..][i];
      Present(points[0]) + rest
  }

  /** The readings come out exactly as filtering the concatenated point lists
      would give them: same values, same multiplicities, same order. */
  lemma {:induction false} SampleReadingsInOrder(points: seq<seq<Option<real>>>)
    ensures SampleReadings(points) == Present(Concat(points))
  {
    if |points| > 0 {
      SampleReadingsInOrder(points[1..]);
      PresentAppend(points[0], Concat(points[1..]));
    }
  }

  /** `get_jan_mean`: the mean of all readings, or `None` when there are none. */
  function JanMean(points: seq<seq<Option<real>>>): (m: Option<real>)
    ensures m.None? <==> forall i :: 0 <= i < |points| ==> |Present(points[i])| == 0
    ensures m.Some? ==> m.value == Mean(SampleReadings(points))
  {
    var all := SampleReadings(points);
    if |all| == 0 then None else Some(Mean(all))
  }

  /** The mean of the samples lies within any band holding every reading. */
  lemma JanMeanWithinReadings(points: seq<seq<Option<real>>>, lo: real, hi: real)
    requires forall i, x :: 0 <= i < |points| && Some(x) in points[i] ==> lo <= x <= hi
    ensures JanMean(points).Some? ==> lo <= JanMean(points).value <= hi
  {
    var all := SampleReadings(points);
    if |all| > 0 {
      forall k | 0 <= k < |all|
        ensures lo <= all[k] <= hi
      {
        assert all[k] in all;
      }
      MeanBounds(all, lo, hi);
    }
  }

  /** Python truthiness of an optional mean: `None` and `0.0` are false. */
  predicate IsTruthy(m: Option<real>) {
    m.Some? && m.value != 0.0
  }

  /** `estimate_january_2026_from_openmeteo` after the two means: absent
      unless both are truthy, otherwise 2025's GISS anomaly shifted by the
      year-on-year change, with uncertainty 0.30. */
  function EstimateFromOpenMeteo(jan2026: Option<real>, jan2025: Option<real>): (e: Option<Estimate>)
    ensures e.None? <==> !IsTruthy(jan2026) || !IsTruthy(jan2025)
    ensures e.Some? ==>
      && e.value.anomaly - 1.38 == jan2026.value - jan2025.value
      && e.value.uncertainty == 0.30
  {
    if IsTruthy(jan2026) && IsTruthy(jan2025) then
      Some(Estimate(January2025() + (jan2026.value - jan2025.value), OpenMeteoUncertainty))
    else None
  }

  /** The estimate depends only on the year-on-year change: equal means give
      back 2025's anomaly, and a warmer 2026 sample a warmer estimate. */
  lemma EstimateFollowsChange(j26: real, j25: real, k26: real, k25: real)
    requires j26 != 0.0 && j25 != 0.0 && k26 != 0.0 && k25 != 0.0
    ensures j26 == j25 ==> EstimateFromOpenMeteo(Some(j26), Some(j25)).value.anomaly == 1.38
    ensures j26 - j25 < k26 - k25 ==>
      EstimateFromOpenMeteo(Some(j26), Some(j25)).value.anomaly
      < EstimateFromOpenMeteo(Some(k26), Some(k25)).value.anomaly
  {
  }

  /** A zero mean counts as missing, even next to a real one. */
  lemma ZeroMeanDiscardsEstimate(j25: real)
    ensures EstimateFromOpenMeteo(Some(0.0), Some(j25)).None?
  {
  }

  // ---------------------------------------------------------------------
  // The analysis

  /** Market prices of the bracket outcomes, as of the end of January 2026. */
  function TempMarketOdds(b: Bracket): real {
    match b
    case Below100 => 0.013
    case From100To104 => 0.032
    case From105To109 => 0.51
    case From110To114 => 0.40
    case From115To119 => 0.05
    case Above119 => 0.0135
  }

  const RankOutcomes: seq<JanuaryRank> := [FirstHottest, SecondHottest, ThirdHottest, FourthOrLower]

  /** Market prices of the ranking outcomes. */
  function RankMarketOdds(r: JanuaryRank): real {
    match r
    case FirstHottest => 0.0055
    case SecondHottest => 0.005
    case ThirdHottest => 0.011
    case FourthOrLower => 0.9785
  }

  /** One printed line of a market table. */
  datatype OutcomeRow = OutcomeRow(marketProb: real, ourProb: real, info: EdgeInfo, action: Direction)

  function RowOf(ourProb: real, marketProb: real): OutcomeRow {
    var info := CalculateEdge(ourProb, marketProb);
    OutcomeRow(marketProb, ourProb, info, Action(info))
  }

  /** The rows of a market table: one per outcome, in table order, each
      setting the simulated share against the outcome's price. */
  function MarketRows(ours: seq<real>, prices: seq<real>): (rows: seq<OutcomeRow>)
    requires |ours| == |prices|
    ensures |rows| == |ours|
    ensures forall i :: 0 <= i < |rows| ==>
      && rows[i].marketProb == prices[i] && rows[i].ourProb == ours[i]
      && rows[i].info == CalculateEdge(ours[i], prices[i])
      && rows[i].action == Action(rows[i].info)
  {
    if |ours| == 0 then [] else [RowOf(ours[0], prices[0])] + MarketRows(ours[1..], prices[1..])
  }

  /** The bracket prices in table order. */
  function TempPrices(): (p: seq<real>)
    ensures |p| == 6 && forall i :: 0 <= i < 6 ==> p[i] == TempMarketOdds(TempBrackets[i])
    ensures forall i :: 0 <= i < |p| ==> 0.0 < p[i] < 1.0
  {
    seq(6, i requires 0 <= i < 6 => TempMarketOdds(TempBrackets[i]))
  }

  /** The ranking prices in table order. */
  function RankPrices(): (p: seq<real>)
    ensures |p| == 4 && forall i :: 0 <= i < 4 ==> p[i] == RankMarketOdds(RankOutcomes[i])
    ensures forall i :: 0 <= i < |p| ==> 0.0 < p[i] < 1.0
  {
    seq(4, i requires 0 <= i < 4 => RankMarketOdds(RankOutcomes[i]))
  }

  /** The quoted bracket prices add up to 1.0185, an overround of 1.85 points
      over a fair book; the rank prices add up to exactly 1. */
  lemma PriceTotals()
    ensures Sum(TempPrices()) == 1.0185
    ensures Sum(RankPrices()) == 1.0
  {
    var t := TempPrices();
    assert t == [0.013, 0.032, 0.51, 0.40, 0.05, 0.0135];
    assert Sum(t[5..]) == 0.0135;
    assert Sum(t[4..]) == 0.05 + Sum(t[5..]);
    assert Sum(t[3..]) == 0.40 + Sum(t[4..]);
    assert Sum(t[2..]) == 0.51 + Sum(t[3..]);
    assert Sum(t[1..]) == 0.032 + Sum(t[2..]);
    var r := RankPrices();
    assert r == [0.0055, 0.005, 0.011, 0.9785];
    assert Sum(r[3..]) == 0.9785;
    assert Sum(r[2..]) == 0.011 + Sum(r[3..]);
    assert Sum(r[1..]) == 0.005 + Sum(r[2..]);
  }

  datatype Analysis = Analysis(
    estimate: Estimate, bracket: Bracket, ranking: JanuaryRank,
    sim: SimResult, tempRows: seq<OutcomeRow>, rankRows: seq<OutcomeRow>)

  /** `run_analysis` with the Open-Meteo estimate (if any) and the normal
      draws as inputs: the fallback estimate replaces a missing one, the
      point classification uses the estimate itself, and every outcome of
      both markets gets a row comparing the simulated share with the price. */
  function RunAnalysis(table: seq<HistEntry>, openMeteo: Option<Estimate>, zs: seq<real>): (r: Analysis)
    requires |zs| == JanuarySims
    ensures openMeteo.None? ==> r.estimate == Estimate(1.05, 0.40)
    ensures openMeteo.Some? ==> r.estimate == openMeteo.value
    ensures InBracket(r.bracket, r.estimate.anomaly)
    ensures r.ranking == JanuaryRanking(table, r.estimate.anomaly)
    ensures r.sim == Simulate(table, r.estimate, zs)
    ensures r.tempRows == MarketRows(r.sim.tempProbs, TempPrices())
    ensures r.rankRows == MarketRows(r.sim.rankProbs, RankPrices())
  {
    var est := openMeteo.GetOr(FallbackEstimate);
    var sim := Simulate(table, est, zs);
    Analysis(est, TempBracket(est.anomaly), JanuaryRanking(table, est.anomaly), sim,
             MarketRows(sim.tempProbs, TempPrices()), MarketRows(sim.rankProbs, RankPrices()))
  }
}

=== FILE: monte_carlo.dfy ===
/** The Monte Carlo ranking of `monte_carlo_ranking`: every trial perturbs
    2026's lead over 2024, 2023 and 2020 by one common adjustment and maps the
    three projected leads to a rank 1..6; the ranks are tallied into
    probabilities. The random draws are inputs, one `Draw` per trial. */
module MonteCarlo {
  import opened Common
  import opened Progress
  import opened Enso
  import opened Tallies

  /** One trial's randomness: `z` a standard normal variate (so that
      `random.gauss(0, sigma)` is `sigma * z`), `u` the value of
      `random.uniform(0.5, 1.5)`, and `coin` which of the two ranks
      `random.choice` picks (false: the first, true: the second). */
  datatype Draw = Draw(z: real, u: real, coin: bool)

  /** Everything a trial needs besides its draw. */
  datatype TrialSetup = TrialSetup(
    diff2024: real, diff2023: real, diff2020: real,
    drift: real, impact: real, uncertainty: real)

  const RankCount: nat := 6
  /** Days in the year the simulation projects to. */
  const SimYearDays: nat := 365
  /** Lead over 2020 above which 2026 ranks third. */
  const ThirdPlaceMargin: real := 0.02
  /** Lead over 2020 above which 2026 ranks fourth or fifth. */
  const FourthPlaceMargin: real := -0.03

  /** The rank rule of one trial, given the projected leads over 2024, 2023
      and 2020. */
  function Rank(f2024: real, f2023: real, f2020: real, coin: bool): (r: nat)
    ensures 1 <= r <= RankCount
    ensures r == 1 <==> f2024 > 0.0
    ensures r == 2 <==> f2024 <= 0.0 && f2023 > 0.0
    ensures r == 3 <==> f2024 <= 0.0 && f2023 <= 0.0 && f2020 > 0.02
    ensures f2024 <= 0.0 && f2023 <= 0.0 && -0.03 < f2020 <= 0.02 ==> r == 4 || r == 5
    ensures f2024 <= 0.0 && f2023 <= 0.0 && f2020 <= -0.03 ==> r == 5 || r == 6
  {
    if f2024 > 0.0 then 1
    else if f2023 > 0.0 then 2
    else if f2020 > ThirdPlaceMargin then 3
    else if f2020 > FourthPlaceMargin then (if coin then 5 else 4)
    else (if coin then 6 else 5)
  }

  /** `comparisons.get(name, {}).get("diff_vs_2026", 0)`. */
  function LeadOver(comparisons: map<string, Comparison>, name: string): (d: real)
    ensures name !in comparisons ==> d == 0.0
  {
    if name in comparisons then comparisons[name].diffVs2026 else 0.0
  }

  /** Over the comparisons of `get_2026_progress`, the lead over a compared
      year is 2026's mean minus that year's window mean, so it is positive
      exactly when 2026 is running warmer; an uncompared year leads by 0. */
  lemma LeadOverWindowMean(data: Era5Data, days: nat, mean2026: real, name: string)
    ensures var lead := LeadOver(Comparisons(data, days, mean2026), name);
      if name in data && IsComparisonYear(name) && |WindowReadings(data, name, days)| > 0 then
        && lead + Mean(WindowReadings(data, name, days)) == mean2026
        && (lead > 0.0 <==> mean2026 > Mean(WindowReadings(data, name, days)))
      else lead == 0.0
  {
  }

  /** The common adjustment of one trial: drift, scaled noise, and the ENSO
      impact scaled by the uniform draw. With `u` in [0.5, 1.5] the ENSO part
      lies between half and one and a half times the impact. */
  function Adjustment(setup: TrialSetup, d: Draw): (a: real)
    ensures setup.impact == 0.0 ==> a == setup.drift + setup.uncertainty * d.z
    ensures 0.5 <= d.u <= 1.5 && setup.impact >= 0.0 ==>
      0.5 * setup.impact <= a - setup.drift - setup.uncertainty * d.z <= 1.5 * setup.impact
    ensures 0.5 <= d.u <= 1.5 && setup.impact <= 0.0 ==>
      1.5 * setup.impact <= a - setup.drift - setup.uncertainty * d.z <= 0.5 * setup.impact
  {
    setup.drift + setup.uncertainty * d.z + EnsoTerm(setup.impact, d.u)
  }

  /** The ENSO part `impact * u` of an adjustment. */
  function EnsoTerm(i: real, u: real): (e: real)
    ensures i == 0.0 ==> e == 0.0
    ensures 0.5 <= u <= 1.5 && i >= 0.0 ==> 0.5 * i <= e <= 1.5 * i
    ensures 0.5 <= u <= 1.5 && i <= 0.0 ==> 1.5 * i <= e <= 0.5 * i
  {
    MulNonNeg(if i >= 0.0 then i else -i, if u >= 0.5 then u - 0.5 else 0.0);
    MulNonNeg(if i >= 0.0 then i else -i, if u <= 1.5 then 1.5 - u else 0.0);
    i * u
  }

  lemma MulNonNeg(a: real, b: real)
    requires a >= 0.0 && b >= 0.0
    ensures a * b >= 0.0
  {
  }

  function TrialRank(setup: TrialSetup, d: Draw): (r: nat)
    ensures 1 <= r <= RankCount
    ensures r == 1 <==> setup.diff2024 + Adjustment(setup, d) > 0.0
  {
    var adj := Adjustment(setup, d);
    Rank(setup.diff2024 + adj, setup.diff2023 + adj, setup.diff2020 + adj, d.coin)
  }

  /** The counter a trial increments: counter `k` holds rank `k + 1`. */
  function CounterOf(setup: TrialSetup): Draw -> nat {
    d => TrialRank(setup, d) - 1
  }

  /** The trial setup `monte_carlo_ranking` derives from its inputs, or `None`
      when more than 365 days have passed (`math.sqrt` of a negative number
      raises). `sqrt` stands for `math.sqrt`. */
  function Setup(p: Progress, enso: EnsoState, sqrt: real -> real): (s: Option<TrialSetup>)
    ensures s.None? <==> p.daysSoFar > SimYearDays
    ensures s.Some? ==>
      && s.value.diff2024 == LeadOver(p.comparisons, "2024")
      && s.value.diff2023 == LeadOver(p.comparisons, "2023")
      && s.value.diff2020 == LeadOver(p.comparisons, "2020")
      && s.value.drift == p.variability.meanDrift
      && s.value.impact == enso.impact
      && s.value.uncertainty
         == p.variability.std * sqrt((SimYearDays - p.daysSoFar) as real / SimYearDays as real)
  {
    if p.daysSoFar > SimYearDays then None
    else
      var remaining := (SimYearDays - p.daysSoFar) as real;
      Some(TrialSetup(
        LeadOver(p.comparisons, "2024"), LeadOver(p.comparisons, "2023"), LeadOver(p.comparisons, "2020"),
        p.variability.meanDrift, enso.impact,
        p.variability.std * sqrt(remaining / SimYearDays as real)))
  }

  /** `monte_carlo_ranking` with `n_sim = |draws|`: entry `k` is the share of
      trials at rank `k + 1`. `None` when the setup fails or there are no
      trials (the division by `n_sim` raises). The shares lie in [0, 1] and
      add up to exactly 1. */
  function MonteCarloRanking(p: Progress, enso: EnsoState, draws: seq<Draw>, sqrt: real -> real): (r: Option<seq<real>>)
    ensures r.None? <==> p.daysSoFar > SimYearDays || |draws| == 0
    ensures r.Some? ==>
      && |r.value| == RankCount
      && Sum(r.value) == 1.0
      && (forall k :: 0 <= k < RankCount ==> 0.0 <= r.value[k] <= 1.0)
      && (forall k :: 0 <= k < RankCount ==>
            r.value[k] == CountWhere(draws, IsClass(CounterOf(Setup(p, enso, sqrt).value), k)) as real / |draws| as real)
  {
    match Setup(p, enso, sqrt)
    case None => None
    case Some(setup) =>
      if |draws| == 0 then None
      else Some(Shares(Tally(draws, CounterOf(setup), RankCount), |draws|))
  }

  /** When every trial leaves 2026 ahead of 2024, rank 1 has probability
      exactly 1 and every other rank 0. */
  lemma {:induction false} AllTrialsAheadOf2024(p: Progress, enso: EnsoState, draws: seq<Draw>, sqrt: real -> real)
    requires p.daysSoFar <= SimYearDays && |draws| > 0
    requires forall i :: 0 <= i < |draws| ==>
      Setup(p, enso, sqrt).value.diff2024 + Adjustment(Setup(p, enso, sqrt).value, draws[i]) > 0.0
    ensures MonteCarloRanking(p, enso, draws, sqrt).Some?
    ensures MonteCarloRanking(p, enso, draws, sqrt).value[0] == 1.0
    ensures forall k :: 1 <= k < RankCount ==> MonteCarloRanking(p, enso, draws, sqrt).value[k] == 0.0
  {
    var setup := Setup(p, enso, sqrt).value;
    var first := IsClass(CounterOf(setup), 0);
    forall i | 0 <= i < |draws|
      ensures first(draws[i])
    {
      RanksFirst(setup, draws[i]);
    }
    CountWhereAll(draws, first);
    var counts := Tally(draws, CounterOf(setup), RankCount);
    OthersEmpty(counts, 0);
    assert MonteCarloRanking(p, enso, draws, sqrt).value == Shares(counts, |draws|);
  }

  /** A trial whose adjusted lead over 2024 is positive lands in counter 0. */
  lemma RanksFirst(setup: TrialSetup, d: Draw)
    requires setup.diff2024 + Adjustment(setup, d) > 0.0
    ensures IsClass(CounterOf(setup), 0)(d)
  {
    assert TrialRank(setup, d) == 1;
  }

  /** The probabilities as the `{rank: probability}` table handed on to the
      edge calculation. */
  function AsRankTable(probs: seq<real>): (t: map<int, real>)
    requires |probs| == RankCount
    ensures forall r :: r in t <==> 1 <= r <= RankCount
    ensures forall r :: 1 <= r <= RankCount ==> t[r] == probs[r - 1]
  {
    map r | 1 <= r <= RankCount :: ProbabilityOfRank(probs, r)
  }

  /** The table built from a ranking has the ranks 1..6 as keys; each value
      is the share of trials ending at that rank, a probability, and the six
      values add up to 1. */
  lemma {:induction false} RankTableOfRanking(p: Progress, enso: EnsoState, draws: seq<Draw>, sqrt: real -> real)
    requires MonteCarloRanking(p, enso, draws, sqrt).Some?
    ensures var t := AsRankTable(MonteCarloRanking(p, enso, draws, sqrt).value);
      && (forall r :: r in t <==> 1 <= r <= RankCount)
      && (forall r :: r in t ==> 0.0 <= t[r] <= 1.0)
      && (forall r :: r in t ==>
            t[r] == CountWhere(draws, IsClass(CounterOf(Setup(p, enso, sqrt).value), r - 1)) as real / |draws| as real)
      && t[1] + t[2] + t[3] + t[4] + t[5] + t[6] == 1.0
  {
    var probs := MonteCarloRanking(p, enso, draws, sqrt).value;
    var t := AsRankTable(probs);
    assert Sum(probs[5..]) == probs[5] by { assert probs[5..][1..] == []; }
    assert Sum(probs[4..]) == probs[4] + Sum(probs[5..]) by { assert probs[4..][1..] == probs[5..]; }
    assert Sum(probs[3..]) == probs[3] + Sum(probs[4..]) by { assert probs[3..][1..] == probs[4..]; }
    assert Sum(probs[2..]) == probs[2] + Sum(probs[3..]) by { assert probs[2..][1..] == probs[3..]; }
    assert Sum(probs[1..]) == probs[1] + Sum(probs[2..]) by { assert probs[1..][1..] == probs[2..]; }
  }

  function ProbabilityOfRank(probs: seq<real>, r: int): real
    requires 1 <= r <= |probs|
  {
    probs[r - 1]
  }
}

=== FILE: progress.dfy ===
/** Year-to-date bookkeeping of `get_2026_progress`: how far into 2026 the
    ERA5 series reaches, its mean against the 2020-2023 baseline, the
    per-year comparisons over the same window, and the historical drift of
    anomalies from year-to-date to full year. */
module Progress {
  import opened Common

  /** ERA5 daily global means, keyed by series name (`"1979"` ... `"2026"`),
      one optional reading per day of year. */
  type Era5Data = map<string, seq<Option<real>>>

  datatype Comparison = Comparison(mean: real, diffVs2026: real)

  datatype Variability = Variability(std: real, meanDrift: real, samples: nat)

  datatype Progress = Progress(
    daysSoFar: nat,
    latestTemp: real,
    mean2026Ytd: real,
    baselineMean: real,
    rawAnomaly: real,
    comparisons: map<string, Comparison>,
    variability: Variability)

  /** The series being tracked, and its name. */
  const TargetYear: nat := 2026
  const TargetName: string := "2026"
  const FirstComparisonYear: nat := 2015
  /** Stand-ins when no qualifying data exists. */
  const FallbackBaseline: real := 12.5
  const FallbackFullYearBaseline: real := 14.0
  const FallbackStd: real := 0.15
  /** Share of the window a drift year must cover, and its full-year minimum. */
  const YtdCoverage: real := 0.8
  const FullYearMinDays: nat := 300
  const YearDays: nat := 365

  /** `era5_data.get(name, [])`. */
  function Series(data: Era5Data, name: string): seq<Option<real>> {
    if name in data then data[name] else []
  }

  /** The readings of a year present among its first `days` entries. */
  function WindowReadings(data: Era5Data, name: string, days: nat): seq<real> {
    Present(Prefix(Series(data, name), days))
  }

  /** A series name that is compared with 2026: a digit string for a year
      from 2015 on, other than "2026" itself. */
  predicate IsComparisonYear(name: string) {
    name != TargetName && IsDigits(name) && DigitsValue(name) >= FirstComparisonYear
  }

  /** The `comparisons` table: every compared year's mean over the first
      `days` entries and 2026's lead over it. */
  function Comparisons(data: Era5Data, days: nat, mean2026: real): (c: map<string, Comparison>)
    ensures forall name :: name in c <==>
      name in data && IsComparisonYear(name) && |WindowReadings(data, name, days)| > 0
    ensures forall name :: name in c ==>
      && c[name].mean == Mean(WindowReadings(data, name, days))
      && c[name].mean + c[name].diffVs2026 == mean2026
  {
    map name | name in data && IsComparisonYear(name) && |WindowReadings(data, name, days)| > 0 ::
      var m := Mean(WindowReadings(data, name, days));
      Comparison(m, mean2026 - m)
  }

  /** Whether year `y` has a non-zero reading among its first `days` entries. */
  function HasTruthyWindow(data: Era5Data, days: nat): nat -> bool {
    (y: nat) => |Truthy(Prefix(Series(data, YearName(y)), days))| > 0
  }

  /** Per-year means of the non-zero readings in the first `days` entries, for
      the years lo .. hi-1 that have any; `if t` drops 0.0 as well as nulls. */
  function TruthyYearMeans(data: Era5Data, days: nat, lo: nat, hi: nat): (r: seq<real>)
    ensures |r| == |YearsWhere(lo, hi, HasTruthyWindow(data, days))|
    decreases hi - lo
  {
    if lo >= hi then
      assert YearsWhere(lo, hi, HasTruthyWindow(data, days)) == {};
      []
    else
      YearsWhereStep(lo, hi, HasTruthyWindow(data, days));
      var t := Truthy(Prefix(Series(data, YearName(lo)), days));
      (if |t| > 0 then [Mean(t)] else []) + TruthyYearMeans(data, days, lo + 1, hi)
  }

  /** `baseline_mean`: mean of the 2020-2023 per-year means, or 12.5 when no
      year of 2020-2023 has a non-zero reading in the window. */
  function BaselineMean(data: Era5Data, days: nat): (b: real)
    ensures YearsWhere(2020, 2024, HasTruthyWindow(data, days)) == {} ==> b == FallbackBaseline
    ensures YearsWhere(2020, 2024, HasTruthyWindow(data, days)) != {} ==>
      |TruthyYearMeans(data, days, 2020, 2024)| > 0 && b == Mean(TruthyYearMeans(data, days, 2020, 2024))
  {
    var means := TruthyYearMeans(data, days, 2020, 2024);
    if |means| > 0 then Mean(means) else FallbackBaseline
  }

  /** Whether year `y` feeds a pooled baseline: its series has at least `days`
      entries and one of the first `days` is present. */
  function ContributesToPool(data: Era5Data, days: nat): nat -> bool {
    (y: nat) => |Series(data, YearName(y))| >= days && |WindowReadings(data, YearName(y), days)| > 0
  }

  /** Readings pooled over the years lo .. hi-1 whose series has at least
      `days` entries: each contributes the present readings among its first
      `days` entries. */
  function Pooled(data: Era5Data, days: nat, lo: nat, hi: nat): (r: seq<real>)
    ensures |r| == 0 <==> YearsWhere(lo, hi, ContributesToPool(data, days)) == {}
    decreases hi - lo
  {
    if lo >= hi then
      assert YearsWhere(lo, hi, ContributesToPool(data, days)) == {};
      []
    else
      YearsWhereStep(lo, hi, ContributesToPool(data, days));
      var here := if |Series(data, YearName(lo))| >= days then WindowReadings(data, YearName(lo), days) else [];
      here + Pooled(data, days, lo + 1, hi)
  }

  /** Mean of the readings pooled over 1991-2020, or `fallback` exactly when
      no year of that period contributes a reading. */
  function PooledMean(data: Era5Data, days: nat, fallback: real): (b: real)
    ensures YearsWhere(1991, 2021, ContributesToPool(data, days)) == {} ==> b == fallback
    ensures YearsWhere(1991, 2021, ContributesToPool(data, days)) != {} ==>
      |Pooled(data, days, 1991, 2021)| > 0 && b == Mean(Pooled(data, days, 1991, 2021))
  {
    var pool := Pooled(data, days, 1991, 2021);
    if |pool| > 0 then Mean(pool) else fallback
  }

  /** A year feeds the drift estimate when it has at least 80% of `days`
      readings in the window and at least 300 readings in its first 365 days. */
  predicate QualifiesForDrift(data: Era5Data, days: nat, y: nat) {
    && |WindowReadings(data, YearName(y), days)| as real >= YtdCoverage * days as real
    && |WindowReadings(data, YearName(y), YearDays)| >= FullYearMinDays
  }

  function DriftYear(data: Era5Data, days: nat): nat -> bool {
    (y: nat) => QualifiesForDrift(data, days, y)
  }

  /** How much a year's anomaly moved from its year-to-date value to its
      full-year value, each against its own baseline. */
  function Drift(data: Era5Data, days: nat, y: nat, baselineYtd: real, baselineFull: real): (d: real)
    requires days > 0 && QualifiesForDrift(data, days, y)
    ensures |WindowReadings(data, YearName(y), days)| > 0 && |WindowReadings(data, YearName(y), YearDays)| >= 300
    ensures var ytdAnomaly := Mean(WindowReadings(data, YearName(y), days)) - baselineYtd;
            var fullAnomaly := Mean(WindowReadings(data, YearName(y), YearDays)) - baselineFull;
            ytdAnomaly + d == fullAnomaly
  {
    var ytd := WindowReadings(data, YearName(y), days);
    var full := WindowReadings(data, YearName(y), YearDays);
    (Mean(full) - baselineFull) - (Mean(ytd) - baselineYtd)
  }

  /** The drifts of the qualifying years lo .. hi-1, in year order. */
  function Drifts(data: Era5Data, days: nat, baselineYtd: real, baselineFull: real, lo: nat, hi: nat): (r: seq<real>)
    requires days > 0
    ensures |r| == |YearsWhere(lo, hi, DriftYear(data, days))|
    decreases hi - lo
  {
    if lo >= hi then
      assert YearsWhere(lo, hi, DriftYear(data, days)) == {};
      []
    else
      YearsWhereStep(lo, hi, DriftYear(data, days));
      (if QualifiesForDrift(data, days, lo) then [Drift(data, days, lo, baselineYtd, baselineFull)] else [])
        + Drifts(data, days, baselineYtd, baselineFull, lo + 1, hi)
  }

  function SumSquaredDeviations(s: seq<real>, m: real): (r: real)
    ensures r >= 0.0
  {
    if |s| == 0 then 0.0
    else
      var d := s[0] - m;
      assert d * d >= 0.0 by {
        if d < 0.0 {
          assert d * d == (-d) * (-d);
        }
      }
      d * d + SumSquaredDeviations(s[1..], m)
  }

  /** `statistics.variance`: the sample variance, never negative. */
  function SampleVariance(s: seq<real>): (v: real)
    requires |s| > 1
    ensures v >= 0.0
  {
    SumSquaredDeviations(s, Mean(s)) / ((|s| - 1) as real)
  }

  /** `historical_variability`: mean and spread of the drifts of the
      qualifying years 2015-2024, with the fallbacks for too few years.
      `sqrt` stands for `math.sqrt` inside `statistics.stdev`. */
  function HistoricalVariability(data: Era5Data, days: nat, sqrt: real -> real): (v: Variability)
    requires days > 0
    ensures v.samples == |YearsWhere(2015, 2025, DriftYear(data, days))|
    ensures v.samples == 0 ==> v.meanDrift == 0.0
    ensures v.samples <= 1 ==> v.std == FallbackStd
    ensures v.samples > 0 ==>
      var diffs := Drifts(data, days, PooledMean(data, days, FallbackBaseline),
                          PooledMean(data, YearDays, FallbackFullYearBaseline), 2015, 2025);
      v.meanDrift == Mean(diffs)
    ensures v.samples > 1 ==>
      var diffs := Drifts(data, days, PooledMean(data, days, FallbackBaseline),
                          PooledMean(data, YearDays, FallbackFullYearBaseline), 2015, 2025);
      v.std == sqrt(SampleVariance(diffs))
  {
    var baselineYtd := PooledMean(data, days, FallbackBaseline);
    var baselineFull := PooledMean(data, YearDays, FallbackFullYearBaseline);
    var diffs := Drifts(data, days, baselineYtd, baselineFull, 2015, 2025);
    Variability(
      if |diffs| > 1 then sqrt(SampleVariance(diffs)) else FallbackStd,
      if |diffs| > 0 then Mean(diffs) else 0.0,
      |diffs|)
  }

  /** `get_2026_progress`: `None` exactly when the 2026 series has no reading;
      otherwise the day count is the number of readings (gaps anywhere are
      skipped, not only a trailing run), the anomaly is the 2026 mean minus
      the baseline, and the comparisons and drifts use that many leading days. */
  function Progress2026(data: Era5Data, sqrt: real -> real): (r: Option<Progress>)
    ensures r.None? <==> forall i :: 0 <= i < |Series(data, TargetName)| ==> Series(data, TargetName)[i].None?
    ensures r.Some? ==>
      var s := Series(data, TargetName);
      var p := r.value;
      && p.daysSoFar == CountWhere(s, IsPresent) > 0
      && p.mean2026Ytd == Mean(Present(s))
      && p.latestTemp == Present(s)[|Present(s)| - 1]
      && p.rawAnomaly + p.baselineMean == p.mean2026Ytd
      && p.baselineMean == BaselineMean(data, p.daysSoFar)
      && p.comparisons == Comparisons(data, p.daysSoFar, p.mean2026Ytd)
      && p.variability == HistoricalVariability(data, p.daysSoFar, sqrt)
  {
    var series := Series(data, TargetName);
    var valid := Present(series);
    if |valid| == 0 then None
    else
      var days := |valid|;
      var mean := Mean(valid);
      var baseline := BaselineMean(data, days);
      assert valid[0] in valid && valid[|valid| - 1] in valid;
      Some(Progress(days, valid[|valid| - 1], mean, baseline, mean - baseline,
                    Comparisons(data, days, mean), HistoricalVariability(data, days, sqrt)))
  }

  /** The latest temperature is the last non-null 2026 reading: every entry
      after it is missing. */
  lemma LatestIsLastReading(data: Era5Data, sqrt: real -> real)
    ensures Progress2026(data, sqrt).Some? ==>
      IsLastPresent(Series(data, TargetName), Progress2026(data, sqrt).value.latestTemp)
  {
    if |Present(Series(data, TargetName))| > 0 {
      PresentLast(Series(data, TargetName));
    }
  }

  /** A gap inside the 2026 series does not stop the count: three days with
      the second missing count as two days. */
  lemma InteriorGapIsSkipped(sqrt: real -> real)
    ensures var p := Progress2026(map["2026" := [Some(13.0), None, Some(13.2)]], sqrt);
            p.Some? && p.value.daysSoFar == 2
  {
    var s: seq<Option<real>> := [Some(13.0), None, Some(13.2)];
    assert CountWhere(s, IsPresent) == 2 by {
      assert s[1..] == [None, Some(13.2)];
      assert s[1..][1..] == [Some(13.2)];
    }
  }
}

=== FILE: sorting.dfy ===
/** Python's `sorted(xs, key=k, reverse=True)`: a stable sort into
    non-increasing key order, modelled as an insertion sort whose insertion
    point lies after every element with an equal or larger key. Also
    `list.index` on such a sorted list. */
module Sorting {
  import opened Common

  ghost predicate SortedDesc<T>(s: seq<T>, key: T -> real) {
    forall i, j :: 0 <= i < j < |s| ==> key(s[i]) >= key(s[j])
  }

  /** Inserts `x` after every element of `s` whose key is at least `key(x)`,
      so elements with equal keys keep their arrival order. */
  function Insert<T>(x: T, s: seq<T>, key: T -> real): (r: seq<T>)
    ensures multiset(r) == multiset(s) + multiset{x}
  {
    if |s| == 0 then [x]
    else if key(s[0]) >= key(x) then
      assert s == [s[0]] + s[1..];
      [s[0]] + Insert(x, s[1..], key)
    else
      [x] + s
  }

  lemma {:induction false} InsertSorted<T>(x: T, s: seq<T>, key: T -> real)
    requires SortedDesc(s, key)
    ensures SortedDesc(Insert(x, s, key), key)
  {
    if |s| > 0 && key(s[0]) >= key(x) {
      var rest := Insert(x, s[1..], key);
      InsertSorted(x, s[1..], key);
      forall k | 0 <= k < |rest|
        ensures key(s[0]) >= key(rest[k])
      {
        assert rest[k] in multiset(s[1..]) + multiset{x} by {
          assert rest[k] in multiset(rest);
        }
        if rest[k] != x {
          assert rest[k] in s[1..];
          var j :| 0 <= j < |s[1..]| && s[1..][j] == rest[k];
          assert s[j + 1] == rest[k];
        }
      }
    }
  }

  /** `sorted(s, key=key, reverse=True)`. */
  function SortDesc<T>(s: seq<T>, key: T -> real): (r: seq<T>)
    ensures SortedDesc(r, key)
    ensures multiset(r) == multiset(s)
  {
    if |s| == 0 then []
    else
      var init := SortDesc(s[..|s| - 1], key);
      InsertSorted(s[|s| - 1], init, key);
      assert s == s[..|s| - 1] + [s[|s| - 1]];
      Insert(s[|s| - 1], init, key)
  }

  /** The elements of `s` whose key is exactly `m`, in their order in `s`. */
  function WithKey<T>(s: seq<T>, key: T -> real, m: real): seq<T> {
    if |s| == 0 then []
    else (if key(s[0]) == m then [s[0]] else []) + WithKey(s[1..], key, m)
  }

  lemma {:induction false} WithKeyAppend<T>(a: seq<T>, b: seq<T>, key: T -> real, m: real)
    ensures WithKey(a + b, key, m) == WithKey(a, key, m) + WithKey(b, key, m)
  {
    if |a| == 0 {
      assert a + b == b;
    } else {
      var head := if key(a[0]) == m then [a[0]] else [];
      assert (a + b)[0] == a[0];
      assert (a + b)[1..] == a[1..] + b;
      WithKeyAppend(a[1..], b, key, m);
      assert WithKey(a + b, key, m) == head + WithKey(a[1..] + b, key, m);
      assert WithKey(a, key, m) == head + WithKey(a[1..], key, m);
      assert head + (WithKey(a[1..], key, m) + WithKey(b, key, m))
          == (head + WithKey(a[1..], key, m)) + WithKey(b, key, m);
    }
  }

  lemma {:induction false} WithKeyAbsent<T>(s: seq<T>, key: T -> real, m: real)
    requires forall i :: 0 <= i < |s| ==> key(s[i]) < m
    ensures WithKey(s, key, m) == []
  {
    if |s| > 0 {
      WithKeyAbsent(s[1..], key, m);
    }
  }

  lemma {:induction false} InsertWithKey<T>(x: T, s: seq<T>, key: T -> real, m: real)
    requires SortedDesc(s, key)
    ensures WithKey(Insert(x, s, key), key, m)
         == WithKey(s, key, m) + (if key(x) == m then [x] else [])
  {
    if |s| == 0 {
    } else if key(s[0]) >= key(x) {
      InsertWithKey(x, s[1..], key, m);
      WithKeyAppend([s[0]], Insert(x, s[1..], key), key, m);
      WithKeyAppend([s[0]], s[1..], key, m);
      assert s == [s[0]] + s[1..];
    } else {
      WithKeyAppend([x], s, key, m);
      if key(x) == m {
        WithKeyAbsent(s, key, m);
      }
    }
  }

  /** Stability: for every key value, the elements carrying it appear in the
      output in the same order as in the input. */
  lemma {:induction false} SortDescIsStable<T>(s: seq<T>, key: T -> real, m: real)
    ensures WithKey(SortDesc(s, key), key, m) == WithKey(s, key, m)
  {
    if |s| > 0 {
      var init, last := s[..|s| - 1], s[|s| - 1];
      var sorted := SortDesc(init, key);
      var tail := if key(last) == m then [last] else [];
      assert SortDesc(s, key) == Insert(last, sorted, key);
      InsertWithKey(last, sorted, key, m);
      SortDescIsStable(init, key, m);
      assert WithKey([last], key, m) == tail by {
        assert [last][1..] == [];
      }
      WithKeyAppend(init, [last], key, m);
      assert s == init + [last];
    }
  }

  /** `s.index(v)`: the first position holding `v`. */
  function IndexOf(s: seq<real>, v: real): (i: nat)
    requires v in s
    ensures i < |s| && s[i] == v
    ensures forall j :: 0 <= j < i ==> s[j] != v
  {
    if s[0] == v then 0 else 1 + IndexOf(s[1..], v)
  }

  function Identity(x: real): real {
    x
  }

  /** The predicate `x > v`, as a value. */
  function Above(v: real): real -> bool {
    x => x > v
  }

  lemma {:induction false} CountAboveNone(s: seq<real>, v: real)
    requires forall i :: 0 <= i < |s| ==> s[i] <= v
    ensures CountWhere(s, Above(v)) == 0
  {
    if |s| > 0 {
      CountAboveNone(s[1..], v);
    }
  }

  /** In a non-increasing list, the first position of `v` is the number of
      elements strictly greater than `v`. */
  lemma {:induction false} IndexOfSortedDesc(s: seq<real>, v: real)
    requires SortedDesc(s, Identity)
    requires v in s
    ensures IndexOf(s, v) == CountWhere(s, Above(v))
  {
    if s[0] == v {
      assert forall i :: 0 <= i < |s| ==> Identity(s[0]) >= Identity(s[i]);
      CountAboveNone(s, v);
    } else {
      var k :| 0 <= k < |s| && s[k] == v;
      assert Identity(s[0]) >= Identity(s[k]);
      assert v in s[1..] by {
        assert s[1..][k - 1] == v;
      }
      IndexOfSortedDesc(s[1..], v);
    }
  }
}

=== FILE: tallies.dfy ===
/** Simulation tallies as folds: every trial is classified into one of `k`
    outcomes, the counter of that outcome goes up by one, and the counters
    are divided by the number of trials. */
module Tallies {
  import opened Common

  /** The predicate "this trial falls into outcome `c`". */
  function IsClass<T>(classOf: T -> nat, c: nat): T -> bool {
    x => classOf(x) == c
  }

  /** `k` counters at zero. */
  function Zeros(k: nat): (z: seq<nat>)
    ensures |z| == k
    ensures SumNat(z) == 0
    ensures forall c :: 0 <= c < k ==> z[c] == 0
  {
    if k == 0 then [] else [0] + Zeros(k - 1)
  }

  /** `counts[c] += 1`. */
  function Increment(counts: seq<nat>, c: nat): (r: seq<nat>)
    requires c < |counts|
    ensures |r| == |counts|
    ensures r[c] == counts[c] + 1
    ensures forall j :: 0 <= j < |r| && j != c ==> r[j] == counts[j]
  {
    counts[c := counts[c] + 1]
  }

  lemma {:induction false} SumNatIncrement(counts: seq<nat>, c: nat)
    requires c < |counts|
    ensures SumNat(Increment(counts, c)) == SumNat(counts) + 1
  {
    if c > 0 {
      assert Increment(counts, c)[1..] == Increment(counts[1..], c - 1);
      SumNatIncrement(counts[1..], c - 1);
    } else {
      assert Increment(counts, c)[1..] == counts[1..];
    }
  }

  /** The counters after classifying every element of `xs`, in order: each
      trial adds one to exactly the counter of its outcome, so counter `c`
      is the number of trials with outcome `c` and the counters add up to
      the number of trials. */
  function Tally<T>(xs: seq<T>, classOf: T -> nat, k: nat): (counts: seq<nat>)
    requires forall i :: 0 <= i < |xs| ==> classOf(xs[i]) < k
    ensures |counts| == k
    ensures SumNat(counts) == |xs|
    ensures forall c :: 0 <= c < k ==> counts[c] == CountWhere(xs, IsClass(classOf, c))
  {
    if |xs| == 0 then Zeros(k)
    else
      var init := xs[..|xs| - 1];
      var last := xs[|xs| - 1];
      var before := Tally(init, classOf, k);
      var c := classOf(last);
      SumNatIncrement(before, c);
      assert xs == init + [last];
      forall j | 0 <= j < k
        ensures Increment(before, c)[j] == CountWhere(xs, IsClass(classOf, j))
      {
        CountWhereAppend(init, [last], IsClass(classOf, j));
      }
      Increment(before, c)
  }

  /** `v / n` for every counter `v`. */
  function Scale(counts: seq<nat>, n: nat): (p: seq<real>)
    requires n > 0
    ensures |p| == |counts|
    ensures forall c :: 0 <= c < |p| ==> p[c] == counts[c] as real / n as real
  {
    if |counts| == 0 then [] else [counts[0] as real / n as real] + Scale(counts[1..], n)
  }

  lemma DivisionAdds(a: real, b: real, d: real)
    requires d > 0.0
    ensures a / d + b / d == (a + b) / d
  {
  }

  lemma DivSelf(x: real)
    requires x > 0.0
    ensures x / x == 1.0
  {
  }

  lemma {:induction false} SumScale(counts: seq<nat>, n: nat)
    requires n > 0
    ensures Sum(Scale(counts, n)) == SumNat(counts) as real / n as real
  {
    if |counts| > 0 {
      var p := Scale(counts, n);
      assert p[1..] == Scale(counts[1..], n);
      SumScale(counts[1..], n);
      DivisionAdds(counts[0] as real, SumNat(counts[1..]) as real, n as real);
    }
  }

  lemma {:induction false} CounterAtMostSum(counts: seq<nat>, c: nat)
    requires c < |counts|
    ensures counts[c] <= SumNat(counts)
  {
    if c > 0 {
      CounterAtMostSum(counts[1..], c - 1);
    }
  }

  /** `{k: v / n for k, v in counts.items()}` for counters adding up to `n`:
      shares in [0, 1] whose sum is exactly 1. */
  function Shares(counts: seq<nat>, n: nat): (p: seq<real>)
    requires n > 0 && SumNat(counts) == n
    ensures |p| == |counts|
    ensures Sum(p) == 1.0
    ensures forall c :: 0 <= c < |p| ==> p[c] == counts[c] as real / n as real
    ensures forall c :: 0 <= c < |p| ==> 0.0 <= p[c] <= 1.0
  {
    SumScale(counts, n);
    DivSelf(n as real);
    forall c | 0 <= c < |counts|
      ensures 0.0 <= counts[c] as real / n as real <= 1.0
    {
      CounterAtMostSum(counts, c);
      ShareAtMostOne(counts[c], n);
    }
    Scale(counts, n)
  }

  lemma ShareAtMostOne(v: nat, n: nat)
    requires 0 < n && v <= n
    ensures 0.0 <= v as real / n as real <= 1.0
  {
    assert (n as real) / (n as real) == 1.0;
  }

  /** A counter holding every trial leaves the other counters empty. */
  lemma {:induction false} OthersEmpty(counts: seq<nat>, c: nat)
    requires c < |counts| && counts[c] == SumNat(counts)
    ensures forall j :: 0 <= j < |counts| && j != c ==> counts[j] == 0
  {
    if c == 0 {
      forall j | 1 <= j < |counts|
        ensures counts[j] == 0
      {
        CounterAtMostSum(counts[1..], j - 1);
      }
    } else {
      CounterAtMostSum(counts[1..], c - 1);
      OthersEmpty(counts[1..], c - 1);
      forall j | 1 <= j < |counts| && j != c
        ensures counts[j] == 0
      {
        assert counts[j] == counts[1..][j - 1];
      }
    }
  }
}

=== FILE: trend.dfy ===
/** The direction label of `get_openmeteo_trend`: the mean of the days after
    ERA5 coverage against the mean of the earlier Open-Meteo days. */
module Trend {
  import opened Common

  datatype TrendDirection = Warming | Cooling | Stable

  /** Change (in degrees) beyond which the recent days count as a trend. */
  const TrendThreshold: real := 0.1

  /** The label of a change: warming above +0.1, cooling below -0.1,
      stable in between (both ends included). */
  function DirectionOf(trend: real): (d: TrendDirection)
    ensures d == Warming <==> trend > 0.1
    ensures d == Cooling <==> trend < -0.1
    ensures d == Stable <==> -0.1 <= trend <= 0.1
  {
    if trend > TrendThreshold then Warming
    else if trend < -TrendThreshold then Cooling
    else Stable
  }

  /** The change of the recent days over the earlier ones, or `None` when
      there are no recent days. Without earlier days the recent mean is
      compared with itself. */
  function RecentTrend(recent: seq<real>, earlier: seq<real>): (t: Option<real>)
    ensures t.None? <==> |recent| == 0
    ensures t.Some? && |earlier| == 0 ==> t.value == 0.0
    ensures t.Some? && |earlier| > 0 ==> t.value + Mean(earlier) == Mean(recent)
  {
    if |recent| == 0 then None
    else
      var avg := Mean(recent);
      var earlierAvg := if |earlier| > 0 then Mean(earlier) else avg;
      Some(avg - earlierAvg)
  }

  /** Mirroring a change mirrors its label, and a trend computed with no
      earlier days is always stable. */
  lemma DirectionSymmetric(trend: real, recent: seq<real>)
    ensures DirectionOf(-trend) == match DirectionOf(trend)
                                   case Warming => Cooling
                                   case Cooling => Warming
                                   case Stable => Stable
    ensures |recent| > 0 ==> DirectionOf(RecentTrend(recent, []).value) == Stable
  {
  }
}
